=== FILE: README.md ===
# Zen workspace background images, modelled in Dafny

The userscript `workspace.uc.js` lets the user give each Zen browser
workspace its own background image. This project models its core:

- the in-memory cache from workspace id to image data URL (a JavaScript `Map`);
- the stylesheet text derived from that cache;
- the persisted copy of each image;
- the handlers that keep those three consistent as the user switches
  workspaces, sets an image or removes one.

It also models the helpers these handlers rely on:

- the two CSS escapes;
- the storage key;
- the prioritised resolver of the active workspace id;
- the extension-to-MIME lookup;
- the chunked bytes-to-binary-string conversion, base64 and the `data:` URL.

The modules follow the script's structure:

| module | file | what it holds |
|---|---|---|
| `Common` | common.dfy | `Option`, JavaScript truthiness of an optional string, prefix tests |
| `Escape` | escape.dfy | the identifier and URL escapes, their undoing, a reader of CSS string tokens |
| `ImageCache` | cache.dfy | the `Map` as an insertion-ordered association list |
| `StyleSheet` | stylesheet.dfy | the rules `updateCSS` writes and a parser that reads them back |
| `Storage` | storage.dfy | session store and preferences as two string maps, with the capability flag and fault flags |
| `Resolver` | resolver.dfy | `getCurrentWorkspaceId` over the host's answers |
| `Mime` | mime.dfy | the last path segment, lower-casing, the seven-entry table and its default |
| `Base64` | base64.dfy | `btoa`, following section 4 of RFC 4648, with a decoder |
| `DataUrl` | dataurl.dfy | the 8192-byte chunked conversion (a method with a loop invariant), the `data:` URL, the `data:image/` check |
| `Workspace` | workspace.dfy | the state record and one step function per handler |

The host is reduced to inputs:

- The DOM answers behind the resolver are a `Resolver.Probe`.
- Which store call throws is a `Storage.Faults`.
- The outcome of the file picker and of reading the file is a `DataUrl.Pick`.
- The ids found by the `querySelectorAll` calls of `loadAllWorkspaceImages` are two sequences.

Each handler's partner is one of the following:

- an invariant every step keeps: `Workspace.Valid` says the keys are unique, no image is empty and the style text is the one derived from the cache;
- the invariant `Workspace.BackedByStore`: every cached image is what the store reads;
- a reference definition, such as `Resolver.FirstAnswer` or the stylesheet parser;
- an inverse, such as the base64 decoder or the unescaping replacements.

Behaviour of the script that the model keeps as written:

- The identifier escape replaces quotes before doubling backslashes, so a quote in an id becomes backslash, backslash, quote. A CSS reader then sees an escaped backslash followed by a closing quote (`Escape.IdentifierQuoteIsMisread`). The stylesheet is proved to read back only for ids without a quote, and for ids and images without a newline or a NUL. The reader of CSS string tokens ends a string at a newline, and input preprocessing turns a NUL into U+FFFD (`Escape.NulIsReadAsReplacement`).
- Visibility of the Remove item follows the store, not the cache (`Workspace.RemoveIgnoresCache`). The two agree while no store call throws (`Workspace.LoadAndApplyRemoveIffCached`).
- The resolver can answer with an empty id taken from the enclosing workspace (`Resolver.EnclosingMayBeEmpty`).
- Loading never writes the store, so persisted images of deleted workspaces stay forever (the `store` ensures of `LoadAllWorkspaceImages`, `LoadAndApplyImage` and `OnMutation`).
- A store write that throws is swallowed, and the image is cached and shown anyway (`Workspace.FailedStoreLeavesCacheAhead`).

`applyImage` (workspace.uc.js:150-180) is not called anywhere in the script. It is modelled as `Workspace.ApplyImage` all the same.

## Model

| member | source | states |
|---|---|---|
| Escape.IdentifierEscapeStep | workspace.uc.js:109-112 | the two chained replacements act one character at a time: a backslash is doubled and a quote becomes backslash, backslash, quote |
| Escape.UrlEscapeStep | workspace.uc.js:125 | the two chained replacements act one character at a time: a backslash is doubled and a quote becomes backslash-quote |
| Escape.EscapesLeavePlainText | workspace.uc.js:109-125 | text without a quote or a backslash passes both escapes unchanged |
| Escape.EscapesAgreeWithoutQuotes | workspace.uc.js:109-125 | on text without quotes the two escapes give the same result, so their order only matters for quotes |
| Escape.UnescapeQuotesInverts | workspace.uc.js:111 | replacing every backslash-quote by a quote undoes the quote pass |
| Escape.HalveBackslashesInverts | workspace.uc.js:125 | replacing every double backslash by one undoes the backslash pass |
| Escape.UrlEscapeUndo | workspace.uc.js:125 | undoing quotes and then backslashes recovers the original URL |
| Escape.IdentifierEscapeUndo | workspace.uc.js:109-112 | the identifier escape is undone by halving backslashes first and unescaping quotes second |
| Escape.IdentifierEscapeUndoInUrlOrderFails | workspace.uc.js:109-112 | undoing the identifier escape in the URL's order turns a lone quote into backslash-quote |
| Escape.UrlEscapeReadsBack | workspace.uc.js:125-130 | for a URL without a newline or a NUL, the escaped URL inside quotes is read by the CSS string-token rules as exactly the URL, and the token ends at the closing quote |
| Escape.IdentifierEscapeReadsBackWithoutQuotes | workspace.uc.js:124-129 | an escaped id without quotes, newlines or NULs reads back exactly |
| Escape.NulIsReadAsReplacement | workspace.uc.js:125-130 | a URL that is one NUL reads back as U+FFFD, because input preprocessing replaces NUL before tokenizing |
| Escape.IdentifierQuoteIsMisread | workspace.uc.js:111 | the id `"` is read as a single backslash and the string closes one character early |
| ImageCache.Get | workspace.uc.js:107 | `get` finds nothing exactly when no entry has the key |
| ImageCache.Set | workspace.uc.js:107 | after `set` the key maps to the new image, every other key reads as before, and a new key goes last in iteration order |
| ImageCache.Delete | workspace.uc.js:107 | after `delete` the key is absent and every other key reads as before; a missing key changes nothing |
| ImageCache.SetUpdatesInPlace | workspace.uc.js:107-121 | `set` on a present key replaces that entry at its own position |
| ImageCache.SetKeepsIdsUnique | workspace.uc.js:107 | `set` never makes a key appear twice |
| ImageCache.DeleteRemovesPosition | workspace.uc.js:107-121 | `delete` removes exactly the key's position and keeps the order of the others |
| ImageCache.DeleteKeepsIdsUnique | workspace.uc.js:107 | `delete` never makes a key appear twice |
| ImageCache.GetAgreesWithMap | workspace.uc.js:107 | `get` on the list is lookup in the finite map the list denotes |
| ImageCache.SetAgreesWithMap | workspace.uc.js:107 | `set` is finite-map update |
| ImageCache.DeleteAgreesWithMap | workspace.uc.js:107 | `delete` is finite-map key removal |
| StyleSheet.Shown | workspace.uc.js:121-122 | the entries that get a rule are exactly the cached entries with a non-empty image |
| StyleSheet.RulesFollowShown | workspace.uc.js:119-139 | one rule per entry with an image, in the cache's iteration order |
| StyleSheet.StyleText | workspace.uc.js:141-147 | the style text is empty exactly when no cached entry has an image |
| StyleSheet.ParseRuleOfRule | workspace.uc.js:128-137 | the rule of an entry whose id holds no quote and whose id and image hold no newline or NUL parses back to that id and image, whatever text follows it |
| StyleSheet.ParseRulesOfJoin | workspace.uc.js:141-142 | the newline-joined rules of one or more entries, each with no quote in its id and no newline or NUL in its id or image, parse back to those entries, in order |
| StyleSheet.TextReadsBack | workspace.uc.js:119-147 | for any rule template and a cache whose ids hold no quote and whose ids and images hold no newline or NUL, parsing the generated text gives exactly the entries with an image |
| StyleSheet.StyleSheetReadsBack | workspace.uc.js:114-148 | for a cache whose ids hold no quote and whose ids and images hold no newline or NUL, parsing the stylesheet gives exactly the cached entries that have an image, in iteration order |
| Storage.KeysAreInjective | workspace.uc.js:55-57 | two ids share a key, or a preference name, only when they are equal |
| Storage.StoreThenGet | workspace.uc.js:182-228 | after a fault-free store of a non-empty image, a fault-free read gives that image |
| Storage.RemoveThenGet | workspace.uc.js:206-246 | after a fault-free removal, a read gives `''` |
| Storage.StoreKeepsOthers | workspace.uc.js:182-204 | storing for one workspace leaves what every other workspace reads, whatever throws |
| Storage.RemoveKeepsOthers | workspace.uc.js:230-246 | removing for one workspace leaves what every other workspace reads, whatever throws |
| Storage.FaultyReadIsEmptyOrExact | workspace.uc.js:215-227 | a read gives `''` or the fault-free value; a throwing session store gives `''`, and so does a throwing preference read whenever the session store has no truthy value to answer first |
| Storage.ReadComesFromAStore | workspace.uc.js:206-228 | a non-empty read is the session value or the preference for that workspace |
| Storage.EmptySessionValueFallsThrough | workspace.uc.js:216-224 | an empty session value does not hide an older preference |
| Resolver.Resolve | workspace.uc.js:21-53 | an empty id can come only from the indicator's enclosing workspace, the one strategy that does not test its answer for truthiness |
| Resolver.ResolveIsFirstAnswer | workspace.uc.js:21-53 | the resolver returns the first strategy that answers, in the order API, selected-or-active element, indicator attribute, enclosing workspace |
| Resolver.ResolveNoneIffAllFail | workspace.uc.js:21-53 | the resolver returns null exactly when every strategy fails |
| Resolver.ApiExceptionIsNoAnswer | workspace.uc.js:23-32 | an exception from the API is the same as having no API |
| Resolver.ApiAnswerWins | workspace.uc.js:23-28 | a truthy API `uuid` wins over the document |
| Resolver.EmptySelectedHidesActive | workspace.uc.js:36-40 | a selected element with an empty id hides the active element |
| Resolver.EnclosingMayBeEmpty | workspace.uc.js:48-49 | the enclosing workspace's empty id is returned as it is |
| Mime.LastSegment | workspace.uc.js:445 | the extension is a dot-free suffix of the path, preceded by a dot unless it is the whole path |
| Mime.LastSegmentAfterDot | workspace.uc.js:445 | the extension of `a.b` with a dot-free `b` is `b` |
| Mime.LastSegmentWithoutDot | workspace.uc.js:445 | a path without a dot is its own extension |
| Mime.ToLowerIdempotent | workspace.uc.js:445 | lower-casing leaves no ASCII capital and is idempotent |
| Mime.Lookup | workspace.uc.js:446-455 | the lookup finds nothing exactly when no row has the key, and what it finds is a row's value |
| Mime.ExtensionMime | workspace.uc.js:446-455 | the table's type for a listed extension, else `image/png`; always an `image/` type |
| Mime.KnownExtensions | workspace.uc.js:446-454 | each of the seven extensions gives its own row's type |
| Mime.UnknownExtensionDefaults | workspace.uc.js:446-455 | an extension that is none of the seven table keys, the empty one included, gives `image/png` |
| Mime.UndetectedMimeIsImage | workspace.uc.js:455-460 | without a detected type the chosen type is an `image/` type |
| Mime.ExtensionMimeAsWritten | workspace.uc.js:455 | the property read as written agrees with the table lookup except on inherited property names |
| Mime.ChooseMimeAsWritten | workspace.uc.js:445-460 | the as-written choice agrees with `ChooseMime` except on inherited property names |
| Mime.ConstructorExtension | workspace.uc.js:445 | the extension of `wallpaper.constructor` is `constructor` |
| Mime.ConstructorIsInherited | workspace.uc.js:446-455 | `constructor` is not a row of the table but is a property every object inherits |
| Mime.InheritedNameEscapesDefault | workspace.uc.js:445-455 | as written, `wallpaper.constructor` gets a type that is not an image type, where the table lookup gives `image/png` |
| Base64.Encode | workspace.uc.js:477 | the encoding's length is a multiple of four, and it is empty exactly when the input is |
| Base64.EncodeLength | workspace.uc.js:477 | the encoding has four characters per started group of three bytes |
| Base64.DecodeEncode | workspace.uc.js:477 | decoding the encoding gives back the bytes |
| Base64.BinaryBytesInverts | workspace.uc.js:475 | a byte's character code gives back the byte |
| Base64.BinaryStringAppend | workspace.uc.js:473-476 | converting a concatenation is concatenating the conversions |
| Base64.BtoaOfBytes | workspace.uc.js:475-477 | `btoa` of the bytes' binary string succeeds and is their encoding |
| DataUrl.ConvertInChunks | workspace.uc.js:470-476 | converting in 8192-byte slices gives the same binary string as converting all bytes at once |
| DataUrl.AcceptableIffImageMime | workspace.uc.js:477-500 | a built data URL passes the `data:image/` check exactly when its type starts with `image/` |
| DataUrl.ReadAsDataUrl | workspace.uc.js:465-477 | the IOUtils path yields the URL of the bytes, which reads back as its type and bytes |
| DataUrl.StreamAgreesWithIoUtils | workspace.uc.js:478-491 | the stream fallback yields the same URL as the IOUtils path for the same content |
| DataUrl.DataUrlReadsBack | workspace.uc.js:477 | a data URL built from bytes parses back to its type and those bytes |
| DataUrl.UndetectedPickIsAcceptable | workspace.uc.js:444-500 | with the table lookup, a file whose type is not detected always passes the `data:image/` check |
| DataUrl.ConstructorFileRefused | workspace.uc.js:444-500 | as written, a readable `wallpaper.constructor` file is refused by the check, while the table lookup accepts it |
| Workspace.DiscoverIds | workspace.uc.js:248-263 | the collected ids are the truthy element ids and indicator attributes, each once |
| Workspace.LoadOne | workspace.uc.js:268-276 | one loop step caches the stored image, or deletes the entry when it is empty, and touches no other id |
| Workspace.LoadEachEffect | workspace.uc.js:267-276 | after the loop each listed id holds its stored image or is absent, and other ids are untouched |
| Workspace.LoadEachKeepsCache | workspace.uc.js:267-276 | the loop keeps keys unique and images non-empty |
| Workspace.LoadAllWorkspaceImages | workspace.uc.js:248-280 | loading changes neither the store nor the current id, and leaves the style derived from the cache |
| Workspace.LoadAllEffect | workspace.uc.js:248-280 | each discovered id is cached exactly when its stored image is non-empty, with that image; other ids keep their entries |
| Workspace.LoadAndApplyImage | workspace.uc.js:282-305 | without a truthy id nothing changes; with one it becomes current, a cached image is kept, an uncached one is loaded from the store or left absent, no other id changes, and the store is never written |
| Workspace.OnMutation | workspace.uc.js:77-85 | a null id or the current id changes nothing; the store is never written |
| Workspace.MutationSwitches | workspace.uc.js:77-85 | a new id becomes current; a cached entry for it is kept, otherwise it is loaded from the store; other entries are untouched |
| Workspace.SwitchShowsRemoveIffStored | workspace.uc.js:352-361 | when the menu exists, after a switch or after `loadAndApplyImage` the Remove item is visible exactly when the store reads an image for the current id |
| Workspace.RemoveIgnoresCache | workspace.uc.js:352-361 | the Remove item's visibility is the same whatever the cache holds |
| Workspace.LoadAndApplyRemoveIffCached | workspace.uc.js:282-305 | on a valid state backed by a store that does not throw, `loadAndApplyImage` leaves Remove visible exactly when the current id is cached |
| Workspace.Init | workspace.uc.js:59-73 | initialisation does not write the store |
| Workspace.ApplyImage | workspace.uc.js:150-163 | without an id nothing changes; otherwise the id maps to the URL, or is deleted for an empty URL, no other id changes, and the style follows the cache |
| Workspace.SetBackground | workspace.uc.js:496-508 | with no data URL, a URL that fails the check or no resolved id, nothing changes |
| Workspace.SetBackgroundAsWritten | workspace.uc.js:444-508 | with the MIME lookup as written: with no data URL, a URL that fails the check or no resolved id, nothing changes |
| Workspace.ConstructorPickIgnored | workspace.uc.js:444-516 | as written, the Set handler ignores a readable `wallpaper.constructor` whose type is not detected; with the intended lookup it caches that file's URL |
| Workspace.ImportUrlEffect | workspace.uc.js:496-516 | importing an acceptable URL for a resolved id caches it for the id, leaves every other id's cache entry and stored image alone, stores the URL unless the store it goes to throws, changes no store when it throws, and shows Remove once the menu exists |
| Workspace.SetBackgroundEffect | workspace.uc.js:510-516 | a successful Set with the intended lookup caches the URL for the id, writes it to the store unless that store throws, leaves every other id's cache entry and stored image alone, and shows Remove once the menu exists |
| Workspace.SetBackgroundAsWrittenEffect | workspace.uc.js:444-516 | the same for the script's own Set handler |
| Workspace.FailedStoreLeavesCacheAhead | workspace.uc.js:182-203 | when the store the image goes to throws, the image is cached although no store changed |
| Workspace.FailedStoreLeavesCacheAheadAsWritten | workspace.uc.js:444-516 | the same for the script's own Set handler |
| Workspace.RemoveBackground | workspace.uc.js:524-554 | without a resolved id nothing changes; with one the Remove item ends up not visible |
| Workspace.RemoveBackgroundEffect | workspace.uc.js:524-554 | Remove drops the id from the cache and, without faults, from the store, and touches no other id |
| Workspace.InitValid | workspace.uc.js:59-73 | initialisation establishes unique keys, no empty image and the derived style |
| Workspace.LoadAllKeepsValid | workspace.uc.js:248-280 | loading all images keeps the invariant |
| Workspace.LoadAndApplyKeepsValid | workspace.uc.js:282-305 | loading the current image keeps the invariant |
| Workspace.OnMutationKeepsValid | workspace.uc.js:77-85 | a workspace switch keeps the invariant |
| Workspace.ApplyImageKeepsValid | workspace.uc.js:150-180 | `applyImage` keeps the invariant |
| Workspace.ImportUrlKeepsValid | workspace.uc.js:496-516 | importing any data URL, or none, keeps the invariant |
| Workspace.SetBackgroundKeepsValid | workspace.uc.js:496-516 | Set with the intended lookup keeps the invariant |
| Workspace.SetBackgroundAsWrittenKeepsValid | workspace.uc.js:444-516 | the script's own Set keeps the invariant |
| Workspace.RemoveBackgroundKeepsValid | workspace.uc.js:533-547 | Remove keeps the invariant |
| Workspace.InitBackedByStore | workspace.uc.js:59-73 | after initialisation every cached image is what the store reads |
| Workspace.LoadedIsStored | workspace.uc.js:269-271 | what a load caches is what a fault-free read gives, since a throwing read gives `''` |
| Workspace.LoadAllKeepsBacked | workspace.uc.js:267-276 | loading all images keeps the cache backed by the store |
| Workspace.LoadAndApplyKeepsBacked | workspace.uc.js:291-301 | loading the current image keeps the cache backed by the store |
| Workspace.OnMutationKeepsBacked | workspace.uc.js:77-85 | a switch keeps the cache backed by the store |
| Workspace.ImportUrlKeepsBacked | workspace.uc.js:496-516 | when the store the image goes to does not throw, importing any data URL keeps the cache backed by the store |
| Workspace.SetBackgroundKeepsBacked | workspace.uc.js:510-514 | when the store the image goes to does not throw, Set with the intended lookup keeps the cache backed by the store |
| Workspace.SetBackgroundAsWrittenKeepsBacked | workspace.uc.js:444-514 | the same for the script's own Set handler |
| Workspace.RemoveBackgroundKeepsBacked | workspace.uc.js:537-541 | Remove keeps the cache backed by the store, whatever throws |

## Left out

- DOM queries, `MutationObserver` registration, style-element creation and XUL menu creation are host plumbing. The model receives their answers as inputs. The style element is taken to exist whenever `updateCSS` runs.
- `addMenuOption` is reduced to a flag saying whether the workspace actions menu, and with it the Set item, exists. `addRemoveOption` creates the Remove item only under that flag.
- The resolver is assumed to see the same DOM for every call within one handler. One `Probe` serves the whole handler.
- File picker creation, the `init` and `open` fallbacks and the reads through `IOUtils` or the stream are foreign I/O. `DataUrl.Pick` carries their outcome. The stream's binary string is taken as given.
- The `setTimeout` delays are dropped: `init` and the body of `handleRemoveBackground` run at once. Nothing can interleave during the delay in this model.
- The `getComputedStyle` check after `applyImage` and all `console` output are diagnostics only.
- Within one handler a store either throws on every call or on none: `Host.faults` is fixed for the handler, so for example `loadAllWorkspaceImages` cannot see a read fail for one id and succeed for the next.
- A store call that throws is taken to change nothing. The host could in principle fail halfway through a write.
- The fixed CSS declarations after the image are one constant string. No property depends on their content.
- `Mime.ToLower` handles only the ASCII letters, whereas `toLowerCase` maps every Unicode letter. The only inherited property names that survive lower-casing are ASCII, so the Finding is unaffected.
- Mime.InheritedNameEscapesDefault: its exact type text is the one SpiderMonkey, the engine the script runs in, prints for the `Object` function. Another engine prints a different text, but no engine's text starts with `image/`, so the refusal stands.
- `Escape.ReadCssString` refuses hexadecimal escapes rather than decoding them. Neither escape of the script produces one.
- Workspace.SetBackground: builds its data URL with the intended MIME lookup (`Mime.ExtensionMime`), so a file such as `wallpaper.constructor` is accepted where the script refuses it. The script's behaviour is `Workspace.SetBackgroundAsWritten`, and `Workspace.ConstructorPickIgnored` relates the two.
- `Workspace.SetBackgroundKeepsBacked` holds only when the store the image goes to does not throw. With a throwing store the cache runs ahead of the store, as `Workspace.FailedStoreLeavesCacheAhead` shows.

## Findings

| source | as written | input that shows it | evidently intended | confidence | as-written member | corrected member |
|---|---|---|---|---|---|---|
| workspace.uc.js:446-455 | `mimeMap[ext] \|\| 'image/png'` reads a property of an object literal, so an extension naming an inherited property (`constructor`, `__proto__`) yields that property instead of the default | a file `wallpaper.constructor` whose type the MIME service does not detect: the type becomes the text of the `Object` function, and the data URL fails the `data:image/` check | `image/png` for every extension outside the table | not executed | Mime.InheritedNameEscapesDefault | Mime.ExtensionMime |

=== FILE: base64.dfy ===
/**
 `btoa` (used at workspace.uc.js:477 and 491): the base64 encoding of
 section 4 of RFC 4648, with `=` padding, applied to a binary string whose
 every character stands for one byte. A character above U+00FF makes `btoa`
 throw; the model answers `None` then.

 A decoder for the same alphabet is the partner definition: decoding the
 encoding of any bytes gives the bytes back.
 */
module Base64 {

  import opened Common

  type Byte = x: int | 0 <= x < 256
  type Sextet = x: int | 0 <= x < 64

  /** The character of a 6-bit value in the base64 alphabet
      (`A`-`Z`, `a`-`z`, `0`-`9`, `+`, `/`). */
  function SextetChar(v: Sextet): (c: char)
    ensures c != '='
  {
    if v < 26 then ('A' as int + v) as char
    else if v < 52 then ('a' as int + (v - 26)) as char
    else if v < 62 then ('0' as int + (v - 52)) as char
    else if v == 62 then '+'
    else '/'
  }

  /** The 6-bit value of an alphabet character, `None` for any other. */
  function CharSextet(c: char): (r: Option<Sextet>)
    ensures r.Some? ==> SextetChar(r.value) == c
  {
    if 'A' <= c <= 'Z' then Some(c as int - 'A' as int)
    else if 'a' <= c <= 'z' then Some(c as int - 'a' as int + 26)
    else if '0' <= c <= '9' then Some(c as int - '0' as int + 52)
    else if c == '+' then Some(62)
    else if c == '/' then Some(63)
    else None
  }

  lemma CharSextetInverts(v: Sextet)
    ensures CharSextet(SextetChar(v)) == Some(v)
  {
  }

  /** Three bytes as four characters. */
  function EncodeGroup(a: Byte, b: Byte, c: Byte): string {
    [SextetChar(a / 4), SextetChar(a % 4 * 16 + b / 16), SextetChar(b % 16 * 4 + c / 64), SextetChar(c % 64)]
  }

  /** Two final bytes as three characters and one `=`. */
  function EncodeTwo(a: Byte, b: Byte): string {
    [SextetChar(a / 4), SextetChar(a % 4 * 16 + b / 16), SextetChar(b % 16 * 4), '=']
  }

  /** One final byte as two characters and two `=`. */
  function EncodeOne(a: Byte): string {
    [SextetChar(a / 4), SextetChar(a % 4 * 16), '=', '=']
  }

  /** The base64 encoding of `bytes`. */
  function Encode(bytes: seq<Byte>): (r: string)
    ensures |r| % 4 == 0
    ensures |r| == 0 <==> |bytes| == 0
    decreases |bytes|
  {
    if |bytes| == 0 then ""
    else if |bytes| == 1 then EncodeOne(bytes[0])
    else if |bytes| == 2 then EncodeTwo(bytes[0], bytes[1])
    else EncodeGroup(bytes[0], bytes[1], bytes[2]) + Encode(bytes[3..])
  }

  /** The byte made of the six bits of `w` and the top two bits of `x`. */
  function JoinHigh(w: Sextet, x: Sextet): Byte {
    (w as int) * 4 + (x as int) / 16
  }

  /** The byte made of the low four bits of `x` and the top four bits of `y`. */
  function JoinMiddle(x: Sextet, y: Sextet): Byte {
    ((x as int) % 16) * 16 + (y as int) / 4
  }

  /** The byte made of the low two bits of `y` and the six bits of `z`. */
  function JoinLow(y: Sextet, z: Sextet): Byte {
    ((y as int) % 4) * 64 + (z as int)
  }

  /** Four alphabet characters as three bytes. */
  function DecodeGroup(q: string): (r: Option<seq<Byte>>)
    requires |q| == 4
    ensures r.Some? ==> |r.value| == 3
  {
    match (CharSextet(q[0]), CharSextet(q[1]), CharSextet(q[2]), CharSextet(q[3]))
    case (Some(w), Some(x), Some(y), Some(z)) =>
      Some([JoinHigh(w, x), JoinMiddle(x, y), JoinLow(y, z)])
    case _ => None
  }

  /** The last four characters: a full group, or one or two bytes followed
      by padding whose unused bits are zero. */
  function DecodeLast(q: string): (r: Option<seq<Byte>>)
    requires |q| == 4
    ensures r.Some? ==> 1 <= |r.value| <= 3
  {
    if q[3] != '=' then DecodeGroup(q)
    else if q[2] == '=' then
      match (CharSextet(q[0]), CharSextet(q[1]))
      case (Some(w), Some(x)) => if x % 16 == 0 then Some([JoinHigh(w, x)]) else None
      case _ => None
    else
      match (CharSextet(q[0]), CharSextet(q[1]), CharSextet(q[2]))
      case (Some(w), Some(x), Some(y)) =>
        if y % 4 == 0 then Some([JoinHigh(w, x), JoinMiddle(x, y)]) else None
      case _ => None
  }

  /** The bytes a base64 text stands for, `None` for a malformed text. */
  function Decode(s: string): Option<seq<Byte>>
    decreases |s|
  {
    if |s| % 4 != 0 then None
    else if s == [] then Some([])
    else if |s| == 4 then DecodeLast(s)
    else
      var first := DecodeGroup(s[..4]);
      var rest := Decode(s[4..]);
      if first.Some? && rest.Some? then Some(first.value + rest.value) else None
  }

  lemma GroupRoundTrip(a: Byte, b: Byte, c: Byte)
    ensures DecodeGroup(EncodeGroup(a, b, c)) == Some([a, b, c])
  {
    var w, x, y, z := a / 4, a % 4 * 16 + b / 16, b % 16 * 4 + c / 64, c % 64;
    CharSextetInverts(w);
    CharSextetInverts(x);
    CharSextetInverts(y);
    CharSextetInverts(z);
    assert JoinHigh(w, x) == a;
    assert JoinMiddle(x, y) == b;
    assert JoinLow(y, z) == c;
  }

  lemma LastGroupRoundTrip(a: Byte, b: Byte, c: Byte)
    ensures Decode(EncodeGroup(a, b, c)) == Some([a, b, c])
  {
    var g := EncodeGroup(a, b, c);
    assert g[3] != '=';
    assert Decode(g) == DecodeGroup(g);
    GroupRoundTrip(a, b, c);
  }

  lemma TwoRoundTrip(a: Byte, b: Byte)
    ensures Decode(EncodeTwo(a, b)) == Some([a, b])
  {
    var w, x, y := a / 4, a % 4 * 16 + b / 16, b % 16 * 4;
    CharSextetInverts(w);
    CharSextetInverts(x);
    CharSextetInverts(y);
    assert JoinHigh(w, x) == a;
    assert JoinMiddle(x, y) == b;
    assert Decode(EncodeTwo(a, b)) == DecodeLast(EncodeTwo(a, b));
  }

  lemma OneRoundTrip(a: Byte)
    ensures Decode(EncodeOne(a)) == Some([a])
  {
    var w, x := a / 4, a % 4 * 16;
    CharSextetInverts(w);
    CharSextetInverts(x);
    assert JoinHigh(w, x) == a;
    assert Decode(EncodeOne(a)) == DecodeLast(EncodeOne(a));
  }

  lemma ShiftByFour(n: nat)
    ensures (n + 4) % 4 == n % 4
  {
  }

  /** Decoding a full group followed by more text. */
  lemma DecodeAppendGroup(g: string, rest: string, x: seq<Byte>, y: seq<Byte>)
    requires |g| == 4 && rest != [] && |rest| % 4 == 0
    requires DecodeGroup(g) == Some(x) && Decode(rest) == Some(y)
    ensures Decode(g + rest) == Some(x + y)
  {
    var s := g + rest;
    ShiftByFour(|rest|);
    assert |s| == |rest| + 4;
    assert s[..4] == g && s[4..] == rest;
  }

  /** Four characters for every started group of three bytes. */
  lemma {:induction false} EncodeLength(bytes: seq<Byte>)
    ensures |Encode(bytes)| == 4 * ((|bytes| + 2) / 3)
    decreases |bytes|
  {
    if |bytes| >= 3 {
      EncodeLength(bytes[3..]);
      assert (|bytes| + 2) / 3 == (|bytes[3..]| + 2) / 3 + 1;
    }
  }

  lemma SplitThree(b: seq<Byte>)
    requires |b| >= 3
    ensures [b[0], b[1], b[2]] + b[3..] == b
    ensures |b| == 3 ==> [b[0], b[1], b[2]] == b
  {
  }

  /** Encoding of more than three bytes: a group, then the rest. */
  lemma EncodeSplits(bytes: seq<Byte>)
    requires |bytes| >= 3
    ensures Encode(bytes) == EncodeGroup(bytes[0], bytes[1], bytes[2]) + Encode(bytes[3..])
  {
  }

  /** The step of the round trip: one group more in front. */
  lemma RoundTripStep(bytes: seq<Byte>)
    requires |bytes| > 3
    requires Decode(Encode(bytes[3..])) == Some(bytes[3..])
    ensures Decode(Encode(bytes)) == Some(bytes)
  {
    var g := EncodeGroup(bytes[0], bytes[1], bytes[2]);
    var rest := Encode(bytes[3..]);
    EncodeSplits(bytes);
    GroupRoundTrip(bytes[0], bytes[1], bytes[2]);
    DecodeAppendGroup(g, rest, [bytes[0], bytes[1], bytes[2]], bytes[3..]);
    SplitThree(bytes);
  }

  /** Decoding undoes encoding for one to three bytes. */
  lemma ShortRoundTrip(bytes: seq<Byte>)
    requires 1 <= |bytes| <= 3
    ensures Decode(Encode(bytes)) == Some(bytes)
  {
    if |bytes| == 1 {
      assert Encode(bytes) == EncodeOne(bytes[0]);
      OneRoundTrip(bytes[0]);
      assert [bytes[0]] == bytes;
    } else if |bytes| == 2 {
      assert Encode(bytes) == EncodeTwo(bytes[0], bytes[1]);
      TwoRoundTrip(bytes[0], bytes[1]);
      assert [bytes[0], bytes[1]] == bytes;
    } else {
      EncodeSplits(bytes);
      assert Encode(bytes) == EncodeGroup(bytes[0], bytes[1], bytes[2]) + "";
      LastGroupRoundTrip(bytes[0], bytes[1], bytes[2]);
      SplitThree(bytes);
    }
  }

  /** Decoding undoes encoding. */
  lemma {:induction false} DecodeEncode(bytes: seq<Byte>)
    ensures Decode(Encode(bytes)) == Some(bytes)
    decreases |bytes|
  {
    if 1 <= |bytes| <= 3 {
      ShortRoundTrip(bytes);
    } else if |bytes| > 3 {
      DecodeEncode(bytes[3..]);
      RoundTripStep(bytes);
    }
  }

  // ---------------------------------------------------------------------
  // Binary strings

  /** A binary string: every character stands for one byte. */
  predicate IsBinary(s: string) {
    forall i :: 0 <= i < |s| ==> s[i] as int < 256
  }

  /** `String.fromCharCode` applied to each byte. */
  function BinaryString(bytes: seq<Byte>): (r: string)
    ensures |r| == |bytes| && IsBinary(r)
    ensures forall i :: 0 <= i < |bytes| ==> r[i] as int == bytes[i]
  {
    seq(|bytes|, i requires 0 <= i < |bytes| => bytes[i] as char)
  }

  /** The bytes a binary string stands for. */
  function BinaryBytes(s: string): (r: seq<Byte>)
    requires IsBinary(s)
    ensures |r| == |s|
    ensures forall i :: 0 <= i < |s| ==> r[i] == s[i] as int
  {
    seq(|s|, i requires 0 <= i < |s| => s[i] as int)
  }

  lemma BinaryBytesInverts(bytes: seq<Byte>)
    ensures BinaryBytes(BinaryString(bytes)) == bytes
  {
  }

  /** Converting two slices and concatenating is converting the whole. */
  lemma BinaryStringAppend(a: seq<Byte>, b: seq<Byte>)
    ensures BinaryString(a + b) == BinaryString(a) + BinaryString(b)
  {
  }

  /** `btoa`: the encoding of the bytes a binary string stands for; `None`
      (an exception) when some character is above U+00FF. */
  function Btoa(s: string): (r: Option<string>)
    ensures r.Some? <==> IsBinary(s)
  {
    if IsBinary(s) then Some(Encode(BinaryBytes(s))) else None
  }

  /** `btoa` of a binary string never throws, and decoding its result gives
      the bytes back. */
  lemma BtoaOfBytes(bytes: seq<Byte>)
    ensures Btoa(BinaryString(bytes)) == Some(Encode(bytes))
    ensures Decode(Btoa(BinaryString(bytes)).value) == Some(bytes)
  {
    BinaryBytesInverts(bytes);
    DecodeEncode(bytes);
  }
}

=== FILE: cache.dfy ===
/**
 The in-memory workspace-to-image cache (`workspaceImages`,
 workspace.uc.js:107): a JavaScript `Map`, modelled as an association list
 in insertion order, since `updateCSS` emits its rules in the map's
 iteration order. `Set` on a present key keeps that key's position;
 `Delete` drops the key and keeps the order of the others.
 */
module ImageCache {

  import opened Common

  /** One cached image: a workspace id and the data URL shown for it. */
  datatype Entry = Entry(id: string, image: string)

  type Cache = seq<Entry>

  /** A `Map` never holds a key twice. */
  predicate UniqueIds(c: Cache) {
    forall i, j :: 0 <= i < j < |c| ==> c[i].id != c[j].id
  }

  /** `workspaceImages.get(id)`. */
  function Get(c: Cache, id: string): (r: Option<string>)
    ensures r.None? <==> forall i :: 0 <= i < |c| ==> c[i].id != id
    decreases |c|
  {
    if c == [] then None
    else if c[0].id == id then Some(c[0].image)
    else
      var r := Get(c[1..], id);
      assert forall i :: 1 <= i < |c| ==> c[i] == c[1..][i - 1];
      r
  }

  /** `workspaceImages.has(id)`. */
  predicate Has(c: Cache, id: string) {
    Get(c, id).Some?
  }

  /** Position of a present key. */
  function IndexOf(c: Cache, id: string): (k: nat)
    requires Has(c, id)
    ensures k < |c| && c[k].id == id
    ensures forall i :: 0 <= i < k ==> c[i].id != id
    decreases |c|
  {
    if c[0].id == id then 0 else 1 + IndexOf(c[1..], id)
  }

  /** `workspaceImages.set(id, image)`: a present key is updated in place,
      a new key goes to the end of the iteration order. */
  function Set(c: Cache, id: string, image: string): (r: Cache)
    ensures Get(r, id) == Some(image)
    ensures forall k :: k != id ==> Get(r, k) == Get(c, k)
    ensures !Has(c, id) ==> r == c + [Entry(id, image)]
    decreases |c|
  {
    if c == [] then [Entry(id, image)]
    else if c[0].id == id then
      var r := [Entry(id, image)] + c[1..];
      assert r[1..] == c[1..];
      r
    else
      var t := Set(c[1..], id, image);
      var r := [c[0]] + t;
      assert r[0] == c[0] && r[1..] == t;
      r
  }

  /** `Delete` of `id`: the entry of `id` leaves and the other keys keep
      their values. */
  function Delete(c: Cache, id: string): (r: Cache)
    ensures Get(r, id) == None
    ensures forall k :: k != id ==> Get(r, k) == Get(c, k)
    ensures !Has(c, id) ==> r == c
    decreases |c|
  {
    if c == [] then []
    else if c[0].id == id then Delete(c[1..], id)
    else
      var t := Delete(c[1..], id);
      var r := [c[0]] + t;
      assert r[0] == c[0] && r[1..] == t;
      r
  }

  /** `Set` on a present key replaces that key's entry where it stands and
      leaves every other position alone. */
  lemma {:induction false} SetUpdatesInPlace(c: Cache, id: string, image: string)
    requires Has(c, id)
    ensures Set(c, id, image) == c[IndexOf(c, id) := Entry(id, image)]
    decreases |c|
  {
    if c[0].id != id {
      var k := IndexOf(c[1..], id);
      assert IndexOf(c, id) == k + 1;
      assert Set(c, id, image) == [c[0]] + Set(c[1..], id, image);
      SetUpdatesInPlace(c[1..], id, image);
      UpdateTail(c, k, Entry(id, image));
    }
  }

  /** `Set` keeps the keys unique. */
  lemma SetKeepsIdsUnique(c: Cache, id: string, image: string)
    requires UniqueIds(c)
    ensures UniqueIds(Set(c, id, image))
  {
    var r := Set(c, id, image);
    if !Has(c, id) {
      forall i, j | 0 <= i < j < |r|
        ensures r[i].id != r[j].id
      {
        assert r[i] == c[i];
        if j < |c| {
          assert r[j] == c[j];
        }
      }
    } else {
      SetUpdatesInPlace(c, id, image);
      forall i, j | 0 <= i < j < |r|
        ensures r[i].id != r[j].id
      {
        assert r[i].id == c[i].id && r[j].id == c[j].id;
      }
    }
  }

  /** The tail of a cache with unique keys has unique keys and lacks the
      head's key. */
  lemma UniqueTail(c: Cache)
    requires UniqueIds(c) && c != []
    ensures UniqueIds(c[1..]) && !Has(c[1..], c[0].id)
  {
    forall i, j | 0 <= i < j < |c[1..]|
      ensures c[1..][i].id != c[1..][j].id
    {
      assert c[1..][i] == c[i + 1] && c[1..][j] == c[j + 1];
    }
    forall i | 0 <= i < |c[1..]|
      ensures c[1..][i].id != c[0].id
    {
      assert c[1..][i] == c[i + 1];
    }
  }

  /** `Delete` of a present key removes exactly that key's position from a
      cache with unique keys; the rest keeps its order. */
  lemma {:induction false} DeleteRemovesPosition(c: Cache, id: string)
    requires UniqueIds(c) && Has(c, id)
    ensures Delete(c, id) == c[..IndexOf(c, id)] + c[IndexOf(c, id) + 1..]
    decreases |c|
  {
    UniqueTail(c);
    if c[0].id == id {
      assert Delete(c, id) == c[1..];
    } else {
      DeleteRemovesPosition(c[1..], id);
      RemoveInTail(c, IndexOf(c[1..], id));
    }
  }

  /** Removing one position keeps the keys unique. */
  lemma RemovalKeepsIdsUnique(c: Cache, k: nat)
    requires UniqueIds(c) && k < |c|
    ensures UniqueIds(c[..k] + c[k + 1..])
  {
    var r := c[..k] + c[k + 1..];
    forall i, j | 0 <= i < j < |r|
      ensures r[i].id != r[j].id
    {
      var i' := if i < k then i else i + 1;
      var j' := if j < k then j else j + 1;
      assert r[i] == c[i'] && r[j] == c[j'];
    }
  }

  /** `Delete` keeps the keys unique. */
  lemma DeleteKeepsIdsUnique(c: Cache, id: string)
    requires UniqueIds(c)
    ensures UniqueIds(Delete(c, id))
  {
    if Has(c, id) {
      DeleteRemovesPosition(c, id);
      RemovalKeepsIdsUnique(c, IndexOf(c, id));
    }
  }

  // ---------------------------------------------------------------------
  // The cache read as a finite map

  /** The key-value content of the cache, forgetting the order; the first
      entry of a key wins, as `Get` does. */
  function AsMap(c: Cache): map<string, string>
    decreases |c|
  {
    if c == [] then map[] else AsMap(c[1..])[c[0].id := c[0].image]
  }

  lemma {:induction false} GetAgreesWithMap(c: Cache, k: string)
    ensures Get(c, k) == (if k in AsMap(c) then Some(AsMap(c)[k]) else None)
    decreases |c|
  {
    if c != [] && c[0].id != k {
      GetAgreesWithMap(c[1..], k);
    }
  }

  /** `Set` is map update. */
  lemma SetAgreesWithMap(c: Cache, id: string, image: string)
    ensures AsMap(Set(c, id, image)) == AsMap(c)[id := image]
  {
    var r := Set(c, id, image);
    forall k | true
      ensures k in AsMap(r) <==> k in AsMap(c)[id := image]
      ensures k in AsMap(r) ==> AsMap(r)[k] == AsMap(c)[id := image][k]
    {
      GetAgreesWithMap(r, k);
      GetAgreesWithMap(c, k);
    }
  }

  /** `Delete` is map key removal. */
  lemma DeleteAgreesWithMap(c: Cache, id: string)
    ensures AsMap(Delete(c, id)) == AsMap(c) - {id}
  {
    var r := Delete(c, id);
    forall k | true
      ensures k in AsMap(r) <==> k in AsMap(c) - {id}
      ensures k in AsMap(r) ==> AsMap(r)[k] == (AsMap(c) - {id})[k]
    {
      GetAgreesWithMap(r, k);
      GetAgreesWithMap(c, k);
    }
  }
}

=== FILE: common.dfy ===
/**
 Small shared vocabulary of the model: an optional value (JavaScript's
 `null`/`undefined` versus a value), JavaScript truthiness of an optional
 string, and string prefix tests.
 */
module Common {

  /** A value that may be absent (`null` or `undefined` in the userscript). */
  datatype Option<+T> = None | Some(value: T)

  /** JavaScript truthiness of a value that is either absent or a string:
      `null`, `undefined` and the empty string are falsy. */
  predicate Truthy(o: Option<string>) {
    o.Some? && o.value != ""
  }

  /** `s.startsWith(p)`. */
  predicate StartsWith(s: string, p: string) {
    |p| <= |s| && s[..|p|] == p
  }

  lemma StartsWithAppend(p: string, t: string)
    ensures StartsWith(p + t, p)
    ensures (p + t)[|p|..] == t
  {
    assert (p + t)[..|p|] == p;
  }

  /** A common prefix cancels out of a prefix test. */
  lemma StartsWithCancel(p: string, t: string, q: string)
    ensures StartsWith(p + t, p + q) <==> StartsWith(t, q)
  {
    if StartsWith(t, q) {
      assert (p + t)[..|p + q|] == p + t[..|q|];
    }
    if StartsWith(p + t, p + q) {
      assert t[..|q|] == (p + t)[..|p + q|][|p|..];
    }
  }

  /** A non-empty sequence is its head followed by its tail. */
  lemma HeadAndTail<T>(s: seq<T>)
    requires s != []
    ensures [s[0]] + s[1..] == s
  {
  }

  /** Updating the tail at `k` is updating the whole at `k + 1`. */
  lemma UpdateTail<T>(s: seq<T>, k: nat, v: T)
    requires k + 1 < |s|
    ensures [s[0]] + s[1..][k := v] == s[k + 1 := v]
  {
  }

  /** Removing position `k` of the tail is removing `k + 1` of the whole. */
  lemma RemoveInTail<T>(s: seq<T>, k: nat)
    requires k + 1 < |s|
    ensures [s[0]] + (s[1..][..k] + s[1..][k + 1..]) == s[..k + 1] + s[k + 2..]
  {
    assert s[..k + 1] == [s[0]] + s[1..][..k];
    assert s[k + 2..] == s[1..][k + 1..];
  }
}

=== FILE: dataurl.dfy ===
/**
 The data path of `handleSetBackground` (workspace.uc.js:441-500): the
 chosen file's bytes become a binary string in slices of 8192 bytes, the
 binary string is base64-encoded, and the result is wrapped in a `data:`
 URL with the chosen MIME type. When reading through `IOUtils` throws, a
 stream gives the binary string directly. The URL is accepted only if it
 starts with `data:image/`.

 The picker, the reads and the MIME service are host calls; the model
 receives what they return as a `Pick`.
 */
module DataUrl {

  import opened Common
  import opened Base64
  import opened Mime

  const ChunkSize: nat := 8192

  function Min(a: int, b: int): int {
    if a <= b then a else b
  }

  /** The conversion loop: `bytes.subarray(i, i + chunkSize)` for
      i = 0, 8192, ..., each slice turned into characters and appended. */
  method ConvertInChunks(bytes: seq<Byte>) returns (binary: string)
    ensures binary == BinaryString(bytes)
  {
    binary := "";
    var i: nat := 0;
    while i < |bytes|
      invariant binary == BinaryString(bytes[..Min(i, |bytes|)])
      decreases |bytes| - i
    {
      var end := Min(i + ChunkSize, |bytes|);
      var chunk := bytes[i..end];
      BinaryStringAppend(bytes[..i], chunk);
      assert bytes[..i] + chunk == bytes[..end];
      binary := binary + BinaryString(chunk);
      i := i + ChunkSize;
    }
    assert bytes[..|bytes|] == bytes;
  }

  /** `data:${mime};base64,${payload}`. */
  function MakeDataUrl(mime: string, payload: string): string {
    "data:" + mime + ";base64," + payload
  }

  const ImagePrefix: string := "data:image/"

  /** The check before storing: `dataUrl.startsWith('data:image/')`. */
  predicate Acceptable(url: string) {
    StartsWith(url, ImagePrefix)
  }

  /** A `;` right after the type ends it: the prefix test sees the type only. */
  lemma SemicolonEndsType(mime: string, tail: string)
    requires tail != [] && tail[0] == ';'
    ensures StartsWith(mime + tail, "image/") <==> StartsWith(mime, "image/")
  {
    var m := mime + tail;
    if |mime| >= 6 {
      assert m[..6] == mime[..6];
    } else {
      assert m[|mime|] == ';';
    }
  }

  /** A data URL passes the check exactly when its type is an image type. */
  lemma AcceptableIffImageMime(mime: string, payload: string)
    ensures Acceptable(MakeDataUrl(mime, payload)) <==> StartsWith(mime, "image/")
  {
    var tail := ";base64," + payload;
    assert MakeDataUrl(mime, payload) == "data:" + (mime + tail);
    assert ImagePrefix == "data:" + "image/";
    StartsWithCancel("data:", mime + tail, "image/");
    SemicolonEndsType(mime, tail);
  }

  /** How the file was read: by `IOUtils` (its bytes), by the stream
      fallback after `IOUtils` threw (its binary string), or not at all
      (the stream threw too). */
  datatype ReadOutcome = IoRead(bytes: seq<Byte>) | StreamRead(binary: string) | ReadFailed

  /** What the picker step yields: the picker could not be initialised, the
      user cancelled, or a file was chosen, with the type the MIME service
      detected (`None` when it threw) and the outcome of reading it. */
  datatype Pick = PickerUnavailable | Cancelled | Picked(path: string, detected: Option<string>, read: ReadOutcome)

  /** The data URL built from the read, `None` when reading or `btoa` threw. */
  function EncodeRead(mime: string, read: ReadOutcome): Option<string> {
    match read
    case IoRead(bytes) =>
      (match Btoa(BinaryString(bytes))
       case Some(b) => Some(MakeDataUrl(mime, b))
       case None => None)
    case StreamRead(binary) =>
      (match Btoa(binary)
       case Some(b) => Some(MakeDataUrl(mime, b))
       case None => None)
    case ReadFailed => None
  }

  /** The data URL of a pick, `None` when the handler stops before it has
      one. */
  function PickedDataUrl(p: Pick): (r: Option<string>)
    ensures !p.Picked? ==> r.None?
  {
    match p
    case Picked(path, detected, read) => EncodeRead(ChooseMime(path, detected), read)
    case _ => None
  }

  /** `handleSetBackground`'s IOUtils branch as a method: the chunked loop,
      then `btoa`, then the URL. */
  method ReadAsDataUrl(mime: string, bytes: seq<Byte>) returns (url: string)
    ensures EncodeRead(mime, IoRead(bytes)) == Some(url)
    ensures ';' !in mime ==> ParseDataUrl(url) == Some((mime, bytes))
  {
    var binary := ConvertInChunks(bytes);
    BtoaOfBytes(bytes);
    url := MakeDataUrl(mime, Btoa(binary).value);
    if ';' !in mime {
      DataUrlReadsBack(mime, bytes);
    }
  }

  /** Both read paths give the same URL for the same file content. */
  lemma StreamAgreesWithIoUtils(mime: string, bytes: seq<Byte>)
    ensures EncodeRead(mime, StreamRead(BinaryString(bytes))) == EncodeRead(mime, IoRead(bytes))
    ensures EncodeRead(mime, IoRead(bytes)).Some?
  {
    BtoaOfBytes(bytes);
  }

  // ---------------------------------------------------------------------
  // Reading a data URL back

  /** The first position at or after `from` holding `c`, or `|s|`. */
  function FindChar(s: string, c: char, from: nat): (k: nat)
    requires from <= |s|
    ensures from <= k <= |s|
    ensures forall i :: from <= i < k ==> s[i] != c
    ensures k < |s| ==> s[k] == c
    decreases |s| - from
  {
    if from == |s| || s[from] == c then from else FindChar(s, c, from + 1)
  }

  const Base64Marker: string := ";base64,"

  /** The type and the bytes of a base64 `data:` URL. */
  function ParseDataUrl(u: string): Option<(string, seq<Byte>)> {
    if !StartsWith(u, "data:") then None
    else
      var rest := u[5..];
      var k := FindChar(rest, ';', 0);
      if !StartsWith(rest[k..], Base64Marker) then None
      else match Decode(rest[k..][|Base64Marker|..])
        case Some(bytes) => Some((rest[..k], bytes))
        case None => None
  }

  /** A data URL built from bytes reads back as its type and those bytes,
      when the type holds no `;`. */
  lemma DataUrlReadsBack(mime: string, bytes: seq<Byte>)
    requires ';' !in mime
    ensures ParseDataUrl(MakeDataUrl(mime, Encode(bytes))) == Some((mime, bytes))
  {
    var payload := Encode(bytes);
    var u := MakeDataUrl(mime, payload);
    var rest := mime + (Base64Marker + payload);
    assert u == "data:" + rest;
    StartsWithAppend("data:", rest);
    assert rest[|mime|] == ';';
    assert FindChar(rest, ';', 0) == |mime|;
    assert rest[..|mime|] == mime;
    assert rest[|mime|..] == Base64Marker + payload;
    StartsWithAppend(Base64Marker, payload);
    DecodeEncode(bytes);
  }

  /** With the type not detected, a chosen file always yields an acceptable
      URL once it is read. */
  lemma UndetectedPickIsAcceptable(path: string, bytes: seq<Byte>)
    ensures PickedDataUrl(Picked(path, None, IoRead(bytes))).Some?
    ensures Acceptable(PickedDataUrl(Picked(path, None, IoRead(bytes))).value)
  {
    BtoaOfBytes(bytes);
    AcceptableIffImageMime(ChooseMime(path, None), Encode(bytes));
  }

  // ---------------------------------------------------------------------
  // The MIME lookup as written

  /** `PickedDataUrl` with the as-written MIME lookup. */
  function PickedDataUrlAsWritten(p: Pick): (r: Option<string>)
    ensures !p.Picked? ==> r.None?
  {
    match p
    case Picked(path, detected, read) => EncodeRead(ChooseMimeAsWritten(path, detected), read)
    case _ => None
  }

  /** A file named `wallpaper.constructor` whose type is not detected is
      refused by the check as written, though the intended lookup gives it
      `image/png`. */
  lemma ConstructorFileRefused(bytes: seq<Byte>)
    ensures PickedDataUrlAsWritten(Picked("wallpaper.constructor", None, IoRead(bytes))).Some?
    ensures !Acceptable(PickedDataUrlAsWritten(Picked("wallpaper.constructor", None, IoRead(bytes))).value)
    ensures Acceptable(PickedDataUrl(Picked("wallpaper.constructor", None, IoRead(bytes))).value)
  {
    InheritedNameEscapesDefault();
    BtoaOfBytes(bytes);
    AcceptableIffImageMime(ChooseMimeAsWritten("wallpaper.constructor", None), Encode(bytes));
    UndetectedPickIsAcceptable("wallpaper.constructor", bytes);
  }
}

=== FILE: escape.dfy ===
/**
 The two escapes the userscript applies before embedding text in a quoted
 CSS string (workspace.uc.js:109-112 and :125), their undoing by the same
 kind of global replacements, and a reader of CSS string tokens that says
 what a style engine makes of the escaped text.

 Both escapes are written as the two chained global `replace` calls of the
 source. The identifier escape replaces quotes first and doubles
 backslashes second, so the backslash it has just inserted before a quote
 is doubled as well; the URL escape runs in the opposite order.
 */
module Escape {

  import opened Common

  /** `s.replace(/"/g, '\\"')`: every quote becomes backslash-quote. */
  function EscapeQuotes(s: string): (r: string)
    ensures s != [] ==> r != [] && r[0] != '"'
    decreases |s|
  {
    if s == [] then []
    else (if s[0] == '"' then "\\\"" else [s[0]]) + EscapeQuotes(s[1..])
  }

  /** `s.replace(/\\/g, '\\\\')`: every backslash is doubled. */
  function DoubleBackslashes(s: string): string
    decreases |s|
  {
    if s == [] then []
    else (if s[0] == '\\' then "\\\\" else [s[0]]) + DoubleBackslashes(s[1..])
  }

  /** `escapeCSSIdentifier`: quotes first, then backslashes. */
  function EscapeIdentifier(s: string): string {
    DoubleBackslashes(EscapeQuotes(s))
  }

  /** The image URL escape of `updateCSS`: backslashes first, then quotes. */
  function EscapeUrl(s: string): string {
    EscapeQuotes(DoubleBackslashes(s))
  }

  /** What the URL escape makes of one character. */
  function UrlCode(c: char): string {
    if c == '\\' then "\\\\" else if c == '"' then "\\\"" else [c]
  }

  /** What the identifier escape makes of one character: a quote becomes
      the three characters backslash, backslash, quote. */
  function IdentifierCode(c: char): string {
    if c == '\\' then "\\\\" else if c == '"' then "\\\\\"" else [c]
  }

  /** `s.replace(/\\"/g, '"')`: left to right, non-overlapping. */
  function UnescapeQuotes(s: string): string
    decreases |s|
  {
    if s == [] then []
    else if |s| >= 2 && s[0] == '\\' && s[1] == '"' then "\"" + UnescapeQuotes(s[2..])
    else [s[0]] + UnescapeQuotes(s[1..])
  }

  /** `s.replace(/\\\\/g, '\\')`: left to right, non-overlapping. */
  function HalveBackslashes(s: string): string
    decreases |s|
  {
    if s == [] then []
    else if |s| >= 2 && s[0] == '\\' && s[1] == '\\' then "\\" + HalveBackslashes(s[2..])
    else [s[0]] + HalveBackslashes(s[1..])
  }

  // ---------------------------------------------------------------------
  // Character-by-character view of the two escapes

  lemma {:induction false} EscapeQuotesAppend(a: string, b: string)
    ensures EscapeQuotes(a + b) == EscapeQuotes(a) + EscapeQuotes(b)
    decreases |a|
  {
    if a != [] {
      assert (a + b)[0] == a[0];
      assert (a + b)[1..] == a[1..] + b;
      EscapeQuotesAppend(a[1..], b);
    } else {
      assert a + b == b;
    }
  }

  lemma {:induction false} DoubleBackslashesAppend(a: string, b: string)
    ensures DoubleBackslashes(a + b) == DoubleBackslashes(a) + DoubleBackslashes(b)
    decreases |a|
  {
    if a != [] {
      assert (a + b)[0] == a[0];
      assert (a + b)[1..] == a[1..] + b;
      DoubleBackslashesAppend(a[1..], b);
    } else {
      assert a + b == b;
    }
  }

  /** The two-pass URL escape acts one character at a time, as the table
      `UrlCode` says. */
  lemma UrlEscapeStep(s: string)
    requires s != []
    ensures EscapeUrl(s) == UrlCode(s[0]) + EscapeUrl(s[1..])
  {
    var head := if s[0] == '\\' then "\\\\" else [s[0]];
    assert DoubleBackslashes(s) == head + DoubleBackslashes(s[1..]);
    EscapeQuotesAppend(head, DoubleBackslashes(s[1..]));
    if s[0] == '\\' {
      assert EscapeQuotes(head) == "\\\\" by {
        assert head[1..][1..] == [];
      }
    } else {
      assert EscapeQuotes(head) == UrlCode(s[0]) by {
        assert head[1..] == [];
      }
    }
  }

  /** The two-pass identifier escape acts one character at a time, as the
      table `IdentifierCode` says: each quote becomes backslash, backslash,
      quote. */
  lemma IdentifierEscapeStep(s: string)
    requires s != []
    ensures EscapeIdentifier(s) == IdentifierCode(s[0]) + EscapeIdentifier(s[1..])
  {
    var head := if s[0] == '"' then "\\\"" else [s[0]];
    assert EscapeQuotes(s) == head + EscapeQuotes(s[1..]);
    DoubleBackslashesAppend(head, EscapeQuotes(s[1..]));
    if s[0] == '"' {
      assert DoubleBackslashes(head) == "\\\\\"" by {
        assert head[1..] == "\"";
        assert head[1..][1..] == [];
      }
    } else {
      assert DoubleBackslashes(head) == IdentifierCode(s[0]) by {
        assert head[1..] == [];
      }
    }
  }

  /** Text with neither a quote nor a backslash passes both escapes
      unchanged. */
  lemma {:induction false} EscapesLeavePlainText(s: string)
    requires forall i :: 0 <= i < |s| ==> s[i] != '"' && s[i] != '\\'
    ensures EscapeUrl(s) == s
    ensures EscapeIdentifier(s) == s
    decreases |s|
  {
    if s != [] {
      UrlEscapeStep(s);
      IdentifierEscapeStep(s);
      EscapesLeavePlainText(s[1..]);
      assert s == [s[0]] + s[1..];
    }
  }

  /** Without quotes the two escapes agree: only the order of the passes
      differs, and that order matters only for quotes. */
  lemma {:induction false} EscapesAgreeWithoutQuotes(s: string)
    requires forall i :: 0 <= i < |s| ==> s[i] != '"'
    ensures EscapeIdentifier(s) == EscapeUrl(s)
    decreases |s|
  {
    if s != [] {
      UrlEscapeStep(s);
      IdentifierEscapeStep(s);
      EscapesAgreeWithoutQuotes(s[1..]);
    }
  }

  // ---------------------------------------------------------------------
  // Undoing the escapes by global replacements

  lemma {:induction false} UnescapeQuotesInverts(s: string)
    ensures UnescapeQuotes(EscapeQuotes(s)) == s
    decreases |s|
  {
    if s != [] {
      var e := EscapeQuotes(s);
      var rest := EscapeQuotes(s[1..]);
      UnescapeQuotesInverts(s[1..]);
      if s[0] == '"' {
        assert e == "\\\"" + rest;
        assert e[2..] == rest;
      } else if s[0] == '\\' {
        assert e == [s[0]] + rest;
        assert e[1..] == rest;
        assert !(|e| >= 2 && e[1] == '"');
      } else {
        assert e == [s[0]] + rest;
        assert e[1..] == rest;
      }
    }
  }

  lemma {:induction false} HalveBackslashesInverts(s: string)
    ensures HalveBackslashes(DoubleBackslashes(s)) == s
    decreases |s|
  {
    if s != [] {
      var e := DoubleBackslashes(s);
      var rest := DoubleBackslashes(s[1..]);
      HalveBackslashesInverts(s[1..]);
      if s[0] == '\\' {
        assert e == "\\\\" + rest;
        assert e[2..] == rest;
      } else {
        assert e == [s[0]] + rest;
        assert e[1..] == rest;
      }
    }
  }

  /** Undoing the URL escape in reverse order (backslash-quote to quote,
      then double backslash to single) recovers the original text. */
  lemma UrlEscapeUndo(s: string)
    ensures HalveBackslashes(UnescapeQuotes(EscapeUrl(s))) == s
  {
    UnescapeQuotesInverts(DoubleBackslashes(s));
    HalveBackslashesInverts(s);
  }

  /** The identifier escape is undone only in the other order: halve the
      backslashes first, then turn backslash-quote back into a quote. */
  lemma IdentifierEscapeUndo(s: string)
    ensures UnescapeQuotes(HalveBackslashes(EscapeIdentifier(s))) == s
  {
    HalveBackslashesInverts(EscapeQuotes(s));
    UnescapeQuotesInverts(s);
  }

  /** Undoing the identifier escape in the URL escape's order does not give
      back a lone quote. */
  lemma IdentifierEscapeUndoInUrlOrderFails()
    ensures HalveBackslashes(UnescapeQuotes(EscapeIdentifier("\""))) == "\\\""
  {
    IdentifierEscapeStep("\"");
    assert EscapeIdentifier("\"") == "\\\\\"";
    var u := UnescapeQuotes("\\\\\"");
    assert u == "\\\"" by {
      assert "\\\\\""[1..] == "\\\"";
      assert "\\\"" [2..] == [];
    }
    assert HalveBackslashes(u) == "\\\"" by {
      assert u[1..] == "\"";
      assert u[1..][1..] == [];
    }
  }

  // ---------------------------------------------------------------------
  // How a style engine reads a double-quoted CSS string

  /** CSS newline characters (LF, CR, FF). Input preprocessing, section
      3.3 of CSS Syntax Module Level 3, turns CR LF, CR and FF into LF; the
      reader below treats all three as newlines and CR LF as one. */
  predicate IsNewline(c: char) {
    c == '\n' || c == '\r' || c == '\U{000C}'
  }

  /** The other replacement of input preprocessing: NUL becomes U+FFFD. */
  function Preprocessed(c: char): char {
    if c == '\0' then '\U{FFFD}' else c
  }

  predicate IsHexDigit(c: char) {
    ('0' <= c <= '9') || ('a' <= c <= 'f') || ('A' <= c <= 'F')
  }

  predicate HasNoNewline(s: string) {
    forall i :: 0 <= i < |s| ==> !IsNewline(s[i])
  }

  /** Text that input preprocessing leaves alone within a line. */
  predicate HasNoNul(s: string) {
    forall i :: 0 <= i < |s| ==> s[i] != '\0'
  }

  /** Reads the body of a double-quoted string token (the text following its
      opening quote) after "consume a string token", section 4.3.5 of CSS
      Syntax Module Level 3: a backslash takes the next character literally,
      a backslash before a newline continues the line, a raw newline makes a
      bad string, and the next unescaped quote ends the token; a NUL, escaped
      or not, is read as U+FFFD, as preprocessing made it. Gives the
      string's value and the text after the closing quote; None for a bad or
      unterminated string and for a hexadecimal escape, which this reader
      does not decode. */
  function ReadCssString(s: string): (r: Option<(string, string)>)
    ensures r.Some? ==> |r.value.1| < |s|
    decreases |s|
  {
    if s == [] then None
    else if s[0] == '"' then Some(("", s[1..]))
    else if IsNewline(s[0]) then None
    else if s[0] == '\\' then
      if |s| == 1 || IsHexDigit(s[1]) then None
      else if s[1] == '\r' && |s| > 2 && s[2] == '\n' then ReadCssString(s[3..])
      else if IsNewline(s[1]) then ReadCssString(s[2..])
      else match ReadCssString(s[2..])
        case None => None
        case Some(vr) => Some(([Preprocessed(s[1])] + vr.0, vr.1))
    else match ReadCssString(s[1..])
      case None => None
      case Some(vr) => Some(([Preprocessed(s[0])] + vr.0, vr.1))
  }

  /** The reader's result with one more character in front of the value. */
  function Prepend(c: char, r: Option<(string, string)>): Option<(string, string)> {
    match r
    case None => None
    case Some(vr) => Some(([c] + vr.0, vr.1))
  }

  lemma ReadPlainChar(c: char, rest: string)
    requires c != '"' && c != '\\' && !IsNewline(c)
    ensures ReadCssString([c] + rest) == Prepend(Preprocessed(c), ReadCssString(rest))
  {
    assert ([c] + rest)[1..] == rest;
  }

  lemma ReadEscapedChar(c: char, rest: string)
    requires !IsHexDigit(c) && !IsNewline(c)
    ensures ReadCssString(['\\', c] + rest) == Prepend(Preprocessed(c), ReadCssString(rest))
  {
    assert (['\\', c] + rest)[2..] == rest;
  }

  lemma Regroup(h: string, e: string, tail: string)
    ensures h + e + "\"" + tail == h + (e + "\"" + tail)
  {
  }

  /** Text without newlines or NULs, escaped by the URL escape and closed by
      a quote, reads back as exactly the original text, and the token ends
      at that closing quote. */
  lemma {:induction false} UrlEscapeReadsBack(u: string, tail: string)
    requires HasNoNewline(u) && HasNoNul(u)
    ensures ReadCssString(EscapeUrl(u) + "\"" + tail) == Some((u, tail))
    decreases |u|
  {
    if u == [] {
      assert EscapeUrl(u) + "\"" + tail == "\"" + tail;
      assert ("\"" + tail)[1..] == tail;
    } else {
      var rest := EscapeUrl(u[1..]) + "\"" + tail;
      UrlEscapeStep(u);
      Regroup(UrlCode(u[0]), EscapeUrl(u[1..]), tail);
      assert HasNoNewline(u[1..]) && HasNoNul(u[1..]);
      UrlEscapeReadsBack(u[1..], tail);
      if u[0] == '\\' || u[0] == '"' {
        assert UrlCode(u[0]) == ['\\', u[0]];
        ReadEscapedChar(u[0], rest);
      } else {
        assert UrlCode(u[0]) == [u[0]];
        ReadPlainChar(u[0], rest);
      }
      HeadAndTail(u);
    }
  }

  /** An identifier without quotes (or newlines or NULs) also reads back
      exactly. */
  lemma IdentifierEscapeReadsBackWithoutQuotes(id: string, tail: string)
    requires forall i :: 0 <= i < |id| ==> id[i] != '"'
    requires HasNoNewline(id) && HasNoNul(id)
    ensures ReadCssString(EscapeIdentifier(id) + "\"" + tail) == Some((id, tail))
  {
    EscapesAgreeWithoutQuotes(id);
    UrlEscapeReadsBack(id, tail);
  }

  /** An identifier that is a single quote is misread: the selector value
      the style engine sees is one backslash, and the string token closes at
      the escaped quote, one character early. */
  lemma IdentifierQuoteIsMisread(tail: string)
    ensures ReadCssString(EscapeIdentifier("\"") + "\"" + tail) == Some(("\\", "\"" + tail))
  {
    IdentifierEscapeStep("\"");
    assert EscapeIdentifier("\"") == "\\\\\"" by {
      assert "\""[1..] == [];
    }
    var rest := "\"" + ("\"" + tail);
    assert EscapeIdentifier("\"") + "\"" + tail == ['\\', '\\'] + rest;
    ReadEscapedChar('\\', rest);
    assert rest[0] == '"' && rest[1..] == "\"" + tail;
    assert ReadCssString(rest) == Some(("", "\"" + tail));
    assert ['\\'] + "" == "\\";
    assert ReadCssString(['\\', '\\'] + rest) == Some(("\\", "\"" + tail));
  }

  /** A NUL in a URL does not read back: the style engine sees U+FFFD in
      its place. */
  lemma NulIsReadAsReplacement(tail: string)
    ensures ReadCssString(EscapeUrl("\0") + "\"" + tail) == Some(("\U{FFFD}", tail))
  {
    UrlEscapeStep("\0");
    assert EscapeUrl("\0") == "\0" by {
      assert "\0"[1..] == [];
    }
    var rest := "\"" + tail;
    assert EscapeUrl("\0") + "\"" + tail == ['\0'] + rest;
    ReadPlainChar('\0', rest);
    assert rest[1..] == tail;
    assert ['\U{FFFD}'] + "" == "\U{FFFD}";
  }
}

=== FILE: mime.dfy ===
/**
 The MIME type `handleSetBackground` puts in the data URL
 (workspace.uc.js:445-460): the path's last `.`-separated segment,
 lower-cased, looked up in a seven-entry table with `image/png` as the
 default; a truthy type detected by the host's MIME service replaces it.

 The source looks the extension up as a property of an object literal, so
 an extension that names a property every object inherits (`constructor`,
 `__proto__`) finds that property instead of falling back to the default.
 `ExtensionMimeAsWritten` models that lookup; `ExtensionMime` is the table
 lookup the source evidently intends, and the rest of the model uses it.
 */
module Mime {

  import opened Common

  /** Where the segment ending at `end` starts: just after the last `.`
      before `end`, or at 0. */
  function SegmentStart(path: string, end: nat): (k: nat)
    requires end <= |path|
    ensures k <= end
    ensures forall i :: k <= i < end ==> path[i] != '.'
    ensures k > 0 ==> path[k - 1] == '.'
  {
    if end == 0 then 0
    else if path[end - 1] == '.' then end
    else SegmentStart(path, end - 1)
  }

  /** `path.split('.').pop()`: the text after the last `.`, or the whole
      path when it has none. */
  function LastSegment(path: string): (r: string)
    ensures |r| <= |path| && r == path[|path| - |r|..]
    ensures forall i :: 0 <= i < |r| ==> r[i] != '.'
    ensures |r| < |path| ==> path[|path| - |r| - 1] == '.'
  {
    path[SegmentStart(path, |path|)..]
  }

  /** The last segment is what follows the last `.`. */
  lemma {:induction false} LastSegmentAfterDot(a: string, b: string)
    requires forall i :: 0 <= i < |b| ==> b[i] != '.'
    ensures LastSegment(a + "." + b) == b
  {
    var p := a + "." + b;
    var r := LastSegment(p);
    assert p[|p| - |b| - 1] == '.';
    assert p[|p| - |b|..] == b;

  }

  /** A path without a `.` is its own last segment. */
  lemma LastSegmentWithoutDot(path: string)
    requires forall i :: 0 <= i < |path| ==> path[i] != '.'
    ensures LastSegment(path) == path
  {
  }

  /** `toLowerCase` on one character, for the ASCII letters. */
  function LowerChar(c: char): char {
    if 'A' <= c <= 'Z' then (c as int - 'A' as int + 'a' as int) as char else c
  }

  /** `toLowerCase`, for the ASCII letters. */
  function ToLower(s: string): (r: string)
    ensures |r| == |s|
    ensures forall i :: 0 <= i < |s| ==> r[i] == LowerChar(s[i])
  {
    seq(|s|, i requires 0 <= i < |s| => LowerChar(s[i]))
  }

  /** Lower-casing leaves no ASCII capital behind and is idempotent. */
  lemma ToLowerIdempotent(s: string)
    ensures forall i :: 0 <= i < |s| ==> !('A' <= ToLower(s)[i] <= 'Z')
    ensures ToLower(ToLower(s)) == ToLower(s)
  {
  }

  /** The extension table `mimeMap`. */
  const MimeTable: seq<(string, string)> := [
    ("png", "image/png"),
    ("jpg", "image/jpeg"),
    ("jpeg", "image/jpeg"),
    ("gif", "image/gif"),
    ("webp", "image/webp"),
    ("svg", "image/svg+xml"),
    ("bmp", "image/bmp")
  ]

  const DefaultMime: string := "image/png"

  /** The value of the first row at or after `from` whose key is `key`. */
  function LookupFrom(table: seq<(string, string)>, key: string, from: nat): (r: Option<string>)
    requires from <= |table|
    ensures r.None? <==> forall i :: from <= i < |table| ==> table[i].0 != key
    ensures r.Some? ==> exists i :: from <= i < |table| && table[i] == (key, r.value)
    decreases |table| - from
  {
    if from == |table| then None
    else if table[from].0 == key then Some(table[from].1)
    else LookupFrom(table, key, from + 1)
  }

  /** The value of the first table row whose key is `key`. */
  function Lookup(table: seq<(string, string)>, key: string): (r: Option<string>)
    ensures r.None? <==> forall i :: 0 <= i < |table| ==> table[i].0 != key
    ensures r.Some? ==> exists i :: 0 <= i < |table| && table[i] == (key, r.value)
  {
    LookupFrom(table, key, 0)
  }

  /** The extension's MIME type: the table's entry, else `image/png`. */
  function ExtensionMime(ext: string): (r: string)
    ensures StartsWith(r, "image/")
    ensures Lookup(MimeTable, ext).Some? ==> r == Lookup(MimeTable, ext).value
    ensures Lookup(MimeTable, ext).None? ==> r == DefaultMime
  {
    match Lookup(MimeTable, ext)
    case Some(m) =>
      assert forall i :: 0 <= i < |MimeTable| ==> StartsWith(MimeTable[i].1, "image/");
      m
    case None => DefaultMime
  }

  /** The type the data URL carries: a truthy detected type, else the
      extension's (`None` stands for a detection that threw). */
  function ChooseMime(path: string, detected: Option<string>): (r: string)
    ensures Truthy(detected) ==> r == detected.value
    ensures !Truthy(detected) ==> r == ExtensionMime(ToLower(LastSegment(path)))
  {
    if Truthy(detected) then detected.value else ExtensionMime(ToLower(LastSegment(path)))
  }

  /** Without a detected type the chosen type is always an image type. */
  lemma UndetectedMimeIsImage(path: string, detected: Option<string>)
    requires !Truthy(detected)
    ensures StartsWith(ChooseMime(path, detected), "image/")
  {
  }

  /** No key appears twice in a table. */
  predicate UniqueKeys(table: seq<(string, string)>) {
    forall i, j :: 0 <= i < j < |table| ==> table[i].0 != table[j].0
  }

  /** In a table with unique keys every row is found by its key. */
  lemma LookupFindsRow(table: seq<(string, string)>, i: nat)
    requires UniqueKeys(table) && i < |table|
    ensures Lookup(table, table[i].0) == Some(table[i].1)
  {
    var r := Lookup(table, table[i].0);
    var j :| 0 <= j < |table| && table[j] == (table[i].0, r.value);
    assert j == i;
  }

  lemma MimeTableKeysUnique()
    ensures UniqueKeys(MimeTable)
  {
    assert MimeTable[1].0 != MimeTable[2].0 by {
      assert |MimeTable[1].0| != |MimeTable[2].0|;
    }
    assert forall i :: 0 <= i < |MimeTable| && i != 1 && i != 2 ==>
      forall j :: 0 <= j < |MimeTable| && j != i ==> MimeTable[i].0[0] != MimeTable[j].0[0];
  }

  /** Each extension of the table gives its own entry. */
  lemma KnownExtensions()
    ensures forall i :: 0 <= i < |MimeTable| ==> ExtensionMime(MimeTable[i].0) == MimeTable[i].1
  {
    MimeTableKeysUnique();
    forall i | 0 <= i < |MimeTable|
      ensures ExtensionMime(MimeTable[i].0) == MimeTable[i].1
    {
      LookupFindsRow(MimeTable, i);
    }
  }

  /** An extension outside the table gets the default. */
  lemma UnknownExtensionDefaults(ext: string)
    requires ext !in ["png", "jpg", "jpeg", "gif", "webp", "svg", "bmp"]
    ensures ExtensionMime(ext) == DefaultMime
  {
    assert forall i :: 0 <= i < |MimeTable| ==> MimeTable[i].0 in ["png", "jpg", "jpeg", "gif", "webp", "svg", "bmp"];
  }

  // ---------------------------------------------------------------------
  // The lookup as written: a property read on an object literal

  /** The properties every object literal inherits, each with the text it
      becomes when interpolated into a template string. The script runs in
      the browser's chrome, so a function prints as SpiderMonkey prints a
      native function: its body is `[native code]` on a line of its own,
      indented by four spaces. */
  const InheritedProperties: seq<(string, string)> := [
    ("constructor", "function Object() {\n    [native code]\n}"),
    ("__proto__", "[object Object]"),
    ("__defineGetter__", "function __defineGetter__() {\n    [native code]\n}"),
    ("__defineSetter__", "function __defineSetter__() {\n    [native code]\n}"),
    ("__lookupGetter__", "function __lookupGetter__() {\n    [native code]\n}"),
    ("__lookupSetter__", "function __lookupSetter__() {\n    [native code]\n}"),
    ("hasOwnProperty", "function hasOwnProperty() {\n    [native code]\n}"),
    ("isPrototypeOf", "function isPrototypeOf() {\n    [native code]\n}"),
    ("propertyIsEnumerable", "function propertyIsEnumerable() {\n    [native code]\n}"),
    ("toString", "function toString() {\n    [native code]\n}"),
    ("toLocaleString", "function toLocaleString() {\n    [native code]\n}"),
    ("valueOf", "function valueOf() {\n    [native code]\n}")
  ]

  /** `mimeMap[ext] || 'image/png'` as written: an own property, else an
      inherited one (every one of which is truthy), else the default. */
  function ExtensionMimeAsWritten(ext: string): (r: string)
    ensures Lookup(MimeTable, ext).Some? ==> r == ExtensionMime(ext)
    ensures Lookup(InheritedProperties, ext).None? ==> r == ExtensionMime(ext)
  {
    match Lookup(MimeTable, ext)
    case Some(m) => m
    case None =>
      match Lookup(InheritedProperties, ext)
      case Some(text) => text
      case None => DefaultMime
  }

  /** Lower-casing a text without ASCII capitals leaves it alone. */
  lemma ToLowerOfLower(s: string)
    requires forall i :: 0 <= i < |s| ==> !('A' <= s[i] <= 'Z')
    ensures ToLower(s) == s
  {
  }

  /** The extension of `wallpaper.constructor` as the source computes it. */
  lemma ConstructorExtension()
    ensures ToLower(LastSegment("wallpaper.constructor")) == "constructor"
  {
    LastSegmentAfterDot("wallpaper", "constructor");
    assert "wallpaper" + "." + "constructor" == "wallpaper.constructor";
    ToLowerOfLower("constructor");
  }

  /** `constructor` is not in the table but is inherited. */
  lemma ConstructorIsInherited()
    ensures Lookup(MimeTable, "constructor").None?
    ensures Lookup(InheritedProperties, "constructor") == Some("function Object() {\n    [native code]\n}")
  {
    assert forall i :: 0 <= i < |MimeTable| ==> MimeTable[i].0[0] != 'c';
  }

  /** The as-written lookup gives a type that is not an image type for an
      inherited property name; `constructor` survives lower-casing, so a file
      named `wallpaper.constructor` whose type is not detected gets the text
      of the `Object` function as its type, while the table lookup gives the
      default `image/png`. */
  lemma InheritedNameEscapesDefault()
    ensures ChooseMimeAsWritten("wallpaper.constructor", None) == "function Object() {\n    [native code]\n}"
    ensures !StartsWith(ChooseMimeAsWritten("wallpaper.constructor", None), "image/")
    ensures ChooseMime("wallpaper.constructor", None) == DefaultMime
  {
    ConstructorExtension();
    ConstructorIsInherited();
    var text := ChooseMimeAsWritten("wallpaper.constructor", None);
    assert text[0] == 'f' != "image/"[0];
  }

  /** The as-written choice of type. */
  function ChooseMimeAsWritten(path: string, detected: Option<string>): (r: string)
    ensures Truthy(detected) ==> r == detected.value
    ensures !Truthy(detected) && Lookup(InheritedProperties, ToLower(LastSegment(path))).None?
            ==> r == ChooseMime(path, detected)
  {
    if Truthy(detected) then detected.value else ExtensionMimeAsWritten(ToLower(LastSegment(path)))
  }
}

=== FILE: resolver.dfy ===
/**
 `getCurrentWorkspaceId` (workspace.uc.js:21-53): the id of the active
 workspace, tried in a fixed order of strategies, as a function of what the
 host answers to each query. The first strategy that returns decides.

 1. The workspaces API, when present: its active workspace's `uuid`, if
    truthy. An exception counts as no answer.
 2. The element `zen-workspace[selected="true"]`, or failing that
    `zen-workspace[active="true"]`: its `id`, if truthy. An existing selected
    element with an empty id hides the active one.
 3. The indicator's `zen-workspace-id` attribute, if truthy.
 4. The id of the workspace element enclosing the indicator, even when empty.
 */
module Resolver {

  import opened Common

  /** What the workspaces API does when asked for the active workspace:
      absent, throws, or returns a workspace whose `uuid` may be missing
      (`None`; a missing workspace is the same). */
  datatype Api = ApiAbsent | ApiThrows | ApiReturns(uuid: Option<string>)

  /** The indicator element: its `zen-workspace-id` attribute and the `id` of
      the closest enclosing `zen-workspace`, each `None` when absent. */
  datatype Indicator = Indicator(attribute: Option<string>, enclosingId: Option<string>)

  /** The host's answers for one call: the API, the `id` of the selected and
      of the active workspace element (`None` when there is no such element),
      and the indicator. */
  datatype Probe = Probe(api: Api, selectedId: Option<string>, activeId: Option<string>, indicator: Option<Indicator>)

  /** `getCurrentWorkspaceId`. */
  function Resolve(p: Probe): (r: Option<string>)
    ensures r == Some("") ==> p.indicator.Some? && p.indicator.value.enclosingId == Some("")
  {
    if p.api.ApiReturns? && Truthy(p.api.uuid) then p.api.uuid
    else
      var element := if p.selectedId.Some? then p.selectedId else p.activeId;
      if Truthy(element) then element
      else if p.indicator.None? then None
      else if Truthy(p.indicator.value.attribute) then p.indicator.value.attribute
      else if p.indicator.value.enclosingId.Some? then p.indicator.value.enclosingId
      else None
  }

  // ---------------------------------------------------------------------
  // Reference definition: the strategies as a list, first answer wins

  /** Each strategy's answer, `None` when it does not return. */
  function Answers(p: Probe): seq<Option<string>> {
    [ if p.api.ApiReturns? && Truthy(p.api.uuid) then p.api.uuid else None,
      if p.selectedId.Some? then (if p.selectedId.value != "" then p.selectedId else None)
      else if Truthy(p.activeId) then p.activeId else None,
      if p.indicator.Some? && Truthy(p.indicator.value.attribute) then p.indicator.value.attribute else None,
      if p.indicator.Some? then p.indicator.value.enclosingId else None ]
  }

  /** The first present answer. */
  function FirstAnswer(answers: seq<Option<string>>): (r: Option<string>)
    ensures r.None? <==> forall i :: 0 <= i < |answers| ==> answers[i].None?
    ensures r.Some? ==> r in answers
  {
    if answers == [] then None
    else if answers[0].Some? then answers[0]
    else
      var r := FirstAnswer(answers[1..]);
      assert forall i :: 1 <= i < |answers| ==> answers[i] == answers[1..][i - 1];
      assert r.Some? ==> r in answers[1..];
      r
  }

  /** The resolver returns the first strategy that answers. */
  lemma ResolveIsFirstAnswer(p: Probe)
    ensures Resolve(p) == FirstAnswer(Answers(p))
  {
    var a := Answers(p);
    assert FirstAnswer(a[3..]) == a[3] by {
      assert a[3..][1..] == [];
    }
    assert FirstAnswer(a[2..]) == if a[2].Some? then a[2] else a[3] by {
      assert a[2..][1..] == a[3..];
    }
    assert FirstAnswer(a[1..]) == if a[1].Some? then a[1] else FirstAnswer(a[2..]) by {
      assert a[1..][1..] == a[2..];
    }
  }

  /** The resolver finds nothing exactly when every strategy fails. */
  lemma ResolveNoneIffAllFail(p: Probe)
    ensures Resolve(p).None? <==>
      && !(p.api.ApiReturns? && Truthy(p.api.uuid))
      && !Truthy(if p.selectedId.Some? then p.selectedId else p.activeId)
      && (p.indicator.Some? ==> !Truthy(p.indicator.value.attribute) && p.indicator.value.enclosingId.None?)
  {
    ResolveIsFirstAnswer(p);
  }

  /** An exception from the API is the same as having no API. */
  lemma ApiExceptionIsNoAnswer(p: Probe)
    ensures Resolve(p.(api := ApiThrows)) == Resolve(p.(api := ApiAbsent))
  {
  }

  /** A truthy API answer wins over everything the document says. */
  lemma ApiAnswerWins(p: Probe, uuid: string)
    requires uuid != ""
    ensures Resolve(p.(api := ApiReturns(Some(uuid)))) == Some(uuid)
  {
  }

  /** A selected element with an empty id hides the active element: the
      resolver goes on to the indicator instead. */
  lemma EmptySelectedHidesActive(p: Probe)
    requires p.selectedId == Some("") && !(p.api.ApiReturns? && Truthy(p.api.uuid))
    ensures Resolve(p) == Resolve(p.(activeId := None))
    ensures p.indicator.None? ==> Resolve(p) == None
  {
  }

  /** The enclosing workspace's id is returned even when empty, so the
      resolver can answer with an empty (falsy) id. */
  lemma EnclosingMayBeEmpty()
    ensures Resolve(Probe(ApiAbsent, None, None, Some(Indicator(None, Some(""))))) == Some("")
  {
  }
}

=== FILE: storage.dfy ===
/**
 The persisted copy of the images (workspace.uc.js:55-57, 182-246). Each
 image is kept under the key `zenWorkspaceBgImage_<id>`, in the browser's
 session store when the host offers one, otherwise in a string preference
 named `extensions.<key>`. Reading checks the session store first and falls
 back to the preference; removing clears both.

 The two stores are finite maps. Whether a call into either of them throws
 is an input (`Faults`); a call that throws is taken to change nothing, and
 every exception is caught inside the three operations.
 */
module Storage {

  import opened Common

  const KeyPrefix: string := "zenWorkspaceBgImage_"
  const PrefBranch: string := "extensions."

  /** The persisted state: whether the session store's custom global values
      are available, the session store's values and the string preferences. */
  datatype Store = Store(sessionAvailable: bool, session: map<string, string>, prefs: map<string, string>)

  /** Which store throws when called during one handler. */
  datatype Faults = Faults(sessionThrows: bool, prefsThrows: bool)

  const NoFaults: Faults := Faults(false, false)

  /** Whether writing an image throws: the write goes to the session store
      when it is available and to the preference otherwise, so only that
      store's fault matters. */
  predicate WriteThrows(s: Store, f: Faults) {
    if s.sessionAvailable then f.sessionThrows else f.prefsThrows
  }

  /** `getStorageKey`. */
  function StorageKey(id: string): (k: string)
    ensures StartsWith(k, KeyPrefix) && k[|KeyPrefix|..] == id
  {
    StartsWithAppend(KeyPrefix, id);
    KeyPrefix + id
  }

  /** The preference name of a workspace's image. */
  function PrefName(id: string): (n: string)
    ensures StartsWith(n, PrefBranch) && n[|PrefBranch|..] == StorageKey(id)
  {
    StartsWithAppend(PrefBranch, StorageKey(id));
    PrefBranch + StorageKey(id)
  }

  /** Distinct workspaces never share a key or a preference. */
  lemma KeysAreInjective(a: string, b: string)
    ensures StorageKey(a) == StorageKey(b) <==> a == b
    ensures PrefName(a) == PrefName(b) <==> a == b
  {
    if PrefName(a) == PrefName(b) {
      assert StorageKey(a) == PrefName(a)[|PrefBranch|..];
    }
  }

  /** The id an operation works on: a truthy argument, else the resolved
      current workspace when that is truthy; `None` makes the operation
      return at once. */
  function EffectiveId(given: Option<string>, resolved: Option<string>): (r: Option<string>)
    ensures r.Some? ==> r.value != ""
    ensures Truthy(given) ==> r == given
    ensures r.None? <==> !Truthy(given) && !Truthy(resolved)
  {
    if Truthy(given) then given
    else if Truthy(resolved) then resolved
    else None
  }

  /** `storeImage`: one write, to the session store when it is available and
      otherwise to the preference; a write that throws is swallowed. */
  function StoreImage(s: Store, f: Faults, dataUrl: string, given: Option<string>, resolved: Option<string>): (r: Store)
    ensures r.sessionAvailable == s.sessionAvailable
  {
    match EffectiveId(given, resolved)
    case None => s
    case Some(id) =>
      if s.sessionAvailable then
        if f.sessionThrows then s else s.(session := s.session[StorageKey(id) := dataUrl])
      else
        if f.prefsThrows then s else s.(prefs := s.prefs[PrefName(id) := dataUrl])
  }

  /** `getStoredImage`: a truthy session value wins; otherwise the
      preference, with `''` as its default; any exception gives `''`. */
  function GetStoredImage(s: Store, f: Faults, given: Option<string>, resolved: Option<string>): (r: string)
    ensures r != "" ==> EffectiveId(given, resolved).Some?
  {
    match EffectiveId(given, resolved)
    case None => ""
    case Some(id) =>
      if s.sessionAvailable && f.sessionThrows then ""
      else if s.sessionAvailable && StorageKey(id) in s.session && s.session[StorageKey(id)] != "" then
        s.session[StorageKey(id)]
      else if f.prefsThrows then ""
      else if PrefName(id) in s.prefs then s.prefs[PrefName(id)]
      else ""
  }

  /** `removeStoredImage`: deletes the session value when the session store
      is available, then clears the preference; an exception from the
      session store skips the preference. */
  function RemoveStoredImage(s: Store, f: Faults, given: Option<string>, resolved: Option<string>): (r: Store)
    ensures r.sessionAvailable == s.sessionAvailable
  {
    match EffectiveId(given, resolved)
    case None => s
    case Some(id) =>
      if s.sessionAvailable && f.sessionThrows then s
      else
        var s1 := if s.sessionAvailable then s.(session := s.session - {StorageKey(id)}) else s;
        if f.prefsThrows then s1 else s1.(prefs := s1.prefs - {PrefName(id)})
  }

  /** What a fault-free read of `id` gives. */
  function Stored(s: Store, id: string): string {
    GetStoredImage(s, NoFaults, Some(id), None)
  }

  /** A stored non-empty image reads back. */
  lemma StoreThenGet(s: Store, v: string, id: string, resolved: Option<string>)
    requires v != "" && id != ""
    ensures GetStoredImage(StoreImage(s, NoFaults, v, Some(id), resolved), NoFaults, Some(id), resolved) == v
  {
  }

  /** After a fault-free removal the image reads as empty, from either store. */
  lemma RemoveThenGet(s: Store, id: string, resolved: Option<string>)
    requires id != ""
    ensures GetStoredImage(RemoveStoredImage(s, NoFaults, Some(id), resolved), NoFaults, Some(id), resolved) == ""
  {
  }

  /** Storing under one workspace leaves what every other workspace reads,
      whatever throws. */
  lemma StoreKeepsOthers(s: Store, f: Faults, v: string, id: string, other: string)
    requires id != "" && other != id
    ensures Stored(StoreImage(s, f, v, Some(id), None), other) == Stored(s, other)
  {
    KeysAreInjective(id, other);
  }

  /** Removing one workspace's image leaves what every other workspace reads,
      whatever throws. */
  lemma RemoveKeepsOthers(s: Store, f: Faults, id: string, other: string)
    requires id != "" && other != id
    ensures Stored(RemoveStoredImage(s, f, Some(id), None), other) == Stored(s, other)
  {
    KeysAreInjective(id, other);
  }

  /** A read whose store throws gives `''`; otherwise it gives what a
      fault-free read gives. One `catch` covers both reads, so a throwing
      preference read gives `''` whenever the session store has no truthy
      value to answer first. */
  lemma FaultyReadIsEmptyOrExact(s: Store, f: Faults, id: string)
    requires id != ""
    ensures var r := GetStoredImage(s, f, Some(id), None); r == "" || r == Stored(s, id)
    ensures s.sessionAvailable && f.sessionThrows ==> GetStoredImage(s, f, Some(id), None) == ""
    ensures f.prefsThrows && !(s.sessionAvailable && StorageKey(id) in s.session && s.session[StorageKey(id)] != "")
            ==> GetStoredImage(s, f, Some(id), None) == ""
  {
  }

  /** A read never invents a value: a non-empty result is what the session
      store or the preference holds for that workspace. */
  lemma ReadComesFromAStore(s: Store, f: Faults, id: string)
    requires id != ""
    ensures var r := GetStoredImage(s, f, Some(id), None);
      r == "" || (StorageKey(id) in s.session && s.session[StorageKey(id)] == r)
               || (PrefName(id) in s.prefs && s.prefs[PrefName(id)] == r)
  {
  }

  /** Writing an empty image to the session store does not hide an older
      preference: the read falls through to it. */
  lemma EmptySessionValueFallsThrough(s: Store, id: string, earlier: string)
    requires id != "" && s.sessionAvailable && PrefName(id) in s.prefs && s.prefs[PrefName(id)] == earlier
    ensures Stored(StoreImage(s, NoFaults, "", Some(id), None), id) == earlier
  {
  }
}

=== FILE: stylesheet.dfy ===
/**
 The stylesheet `updateCSS` derives from the image cache
 (workspace.uc.js:114-148): one rule per entry whose image is non-empty,
 in the cache's iteration order, joined by newlines; empty text when no
 entry qualifies. A parser for that text is the partner definition: on a
 cache whose ids hold no quote and where nothing holds a newline, parsing
 the stylesheet back gives exactly the entries that have an image.

 Rules are built from a template holding the fixed text around the two
 quoted values; the proofs hold for every template, and `StyleText` uses
 the one of the source.
 */
module StyleSheet {

  import opened Common
  import opened Escape
  import opened ImageCache

  /** The fixed text of a rule around its two quoted values: up to the
      selector value's opening quote, between the selector value's closing
      quote and the URL's opening quote, and after the URL's closing quote. */
  datatype Template = Template(open: string, middle: string, close: string)

  /** The fixed declarations that follow the image (size, position, repeat,
      opacity, shadow); no part of the model depends on their content. */
  const Declarations: string :=
    "             background-size: cover !important;\n"
    + "             background-position: center !important;\n"
    + "             background-repeat: no-repeat !important;\n"
    + "             opacity: 0.2 !important;\n"
    + "             box-shadow: inset 0 0 15px 2px rgba(0, 0, 0, 0.9) !important;\n"

  /** The rule template of `updateCSS`: an attribute selector on the
      indicator's `::before` layer, and a background image. */
  const RuleTemplate: Template := Template(
    "\n           .zen-current-workspace-indicator[zen-workspace-id=\"",
    "]::before {\n             background-image: url(\"",
    ") !important;\n" + Declarations + "           }\n         ")

  /** The rule for one entry: escaped id and escaped image URL, each in
      quotes, inside the template's fixed text. */
  function Rule(tpl: Template, e: Entry): string {
    tpl.open + EscapeIdentifier(e.id) + "\"" + tpl.middle
      + EscapeUrl(e.image) + "\"" + tpl.close
  }

  /** The entries that get a rule (`if (imageUrl)`), in iteration order. */
  function Shown(c: Cache): (r: Cache)
    ensures |r| <= |c|
    ensures forall e :: e in r <==> e in c && e.image != ""
    decreases |c|
  {
    if c == [] then []
    else
      var t := Shown(c[1..]);
      assert forall e :: e in c <==> e == c[0] || e in c[1..];
      if c[0].image != "" then [c[0]] + t else t
  }

  /** The loop of `updateCSS` collecting `cssRules`. */
  function Rules(tpl: Template, c: Cache): seq<string>
    decreases |c|
  {
    if c == [] then []
    else (if c[0].image != "" then [Rule(tpl, c[0])] else []) + Rules(tpl, c[1..])
  }

  /** `rules.join(sep)`. */
  function Join(rules: seq<string>, sep: string): string
    decreases |rules|
  {
    if |rules| == 0 then ""
    else if |rules| == 1 then rules[0]
    else rules[0] + sep + Join(rules[1..], sep)
  }

  /** The style text from a template: the joined rules, or empty text when
      there is no rule. */
  function TextFrom(tpl: Template, c: Cache): (r: string)
    ensures r == "" <==> forall i :: 0 <= i < |c| ==> c[i].image == ""
  {
    var rules := Rules(tpl, c);
    RulesFollowShown(tpl, c);
    assert (forall i :: 0 <= i < |c| ==> c[i].image == "") <==> Shown(c) == [] by {
      if Shown(c) != [] {
        assert Shown(c)[0] in c;
      }
      if exists i :: 0 <= i < |c| && c[i].image != "" {
        var i :| 0 <= i < |c| && c[i].image != "";
        assert c[i] in Shown(c);
      }
    }
    if |rules| > 0 then
      assert |Join(rules, "\n")| >= |rules[0]| > 0 by {
        JoinStartsWithFirst(rules, "\n");
      }
      Join(rules, "\n")
    else ""
  }

  /** The text `updateCSS` installs in the style element: empty exactly
      when no cached entry has an image. */
  function StyleText(c: Cache): (r: string)
    ensures r == "" <==> forall i :: 0 <= i < |c| ==> c[i].image == ""
  {
    TextFrom(RuleTemplate, c)
  }

  lemma {:induction false} JoinStartsWithFirst(rules: seq<string>, sep: string)
    requires |rules| > 0
    ensures StartsWith(Join(rules, sep), rules[0])
  {
    if |rules| > 1 {
      StartsWithAppend(rules[0], sep + Join(rules[1..], sep));
      assert rules[0] + sep + Join(rules[1..], sep) == rules[0] + (sep + Join(rules[1..], sep));
    }
  }

  /** Rules that follow their entries still do with one more in front. */
  lemma PrependRule(tpl: Template, e: Entry, rs: seq<string>, es: Cache)
    requires |rs| == |es|
    requires forall i :: 0 <= i < |es| ==> rs[i] == Rule(tpl, es[i])
    ensures |[Rule(tpl, e)] + rs| == |[e] + es|
    ensures forall i :: 0 <= i < |[e] + es| ==> ([Rule(tpl, e)] + rs)[i] == Rule(tpl, ([e] + es)[i])
  {
    forall i | 1 <= i < |[e] + es|
      ensures ([Rule(tpl, e)] + rs)[i] == Rule(tpl, ([e] + es)[i])
    {
      assert ([Rule(tpl, e)] + rs)[i] == rs[i - 1];
      assert ([e] + es)[i] == es[i - 1];
    }
  }

  /** Exactly one rule per entry with an image, in iteration order. */
  lemma {:induction false} RulesFollowShown(tpl: Template, c: Cache)
    ensures |Rules(tpl, c)| == |Shown(c)|
    ensures forall i :: 0 <= i < |Shown(c)| ==> Rules(tpl, c)[i] == Rule(tpl, Shown(c)[i])
    decreases |c|
  {
    if c != [] {
      RulesFollowShown(tpl, c[1..]);
      var rs, es := Rules(tpl, c[1..]), Shown(c[1..]);
      if c[0].image != "" {
        assert Rules(tpl, c) == [Rule(tpl, c[0])] + rs;
        assert Shown(c) == [c[0]] + es;
        PrependRule(tpl, c[0], rs, es);
      } else {
        assert Rules(tpl, c) == [] + rs;
        assert Shown(c) == es;
      }
    }
  }

  // ---------------------------------------------------------------------
  // Reading the stylesheet back

  /** Parses one rule made from `tpl` off the front of `t`, reading the
      selector value and the URL as CSS strings; gives the entry and the
      remaining text. */
  function ParseRule(tpl: Template, t: string): (r: Option<(Entry, string)>)
    ensures r.Some? ==> |r.value.1| < |t|
  {
    if !StartsWith(t, tpl.open) then None
    else ParseFromId(tpl, t[|tpl.open|..])
  }

  /** The part of `ParseRule` from the selector value on. */
  function ParseFromId(tpl: Template, t: string): (r: Option<(Entry, string)>)
    ensures r.Some? ==> |r.value.1| < |t|
  {
    match ReadCssString(t)
    case None => None
    case Some(idRest) =>
      if !StartsWith(idRest.1, tpl.middle) then None
      else ParseFromUrl(tpl, idRest.0, idRest.1[|tpl.middle|..])
  }

  /** The part of `ParseRule` from the URL on. */
  function ParseFromUrl(tpl: Template, id: string, t: string): (r: Option<(Entry, string)>)
    ensures r.Some? ==> |r.value.1| < |t|
  {
    match ReadCssString(t)
    case None => None
    case Some(urlRest) =>
      if !StartsWith(urlRest.1, tpl.close) then None
      else Some((Entry(id, urlRest.0), urlRest.1[|tpl.close|..]))
  }

  /** Parses newline-separated rules up to the end of `t`. */
  function ParseRules(tpl: Template, t: string): Option<Cache>
    decreases |t|
  {
    match ParseRule(tpl, t)
    case None => None
    case Some(er) =>
      if er.1 == [] then Some([er.0])
      else if er.1[0] != '\n' then None
      else match ParseRules(tpl, er.1[1..])
        case None => None
        case Some(es) => Some([er.0] + es)
  }

  /** Reads style text made from `tpl` back into the entries it renders. */
  function ParseText(tpl: Template, t: string): Option<Cache> {
    if t == [] then Some([]) else ParseRules(tpl, t)
  }

  /** Reads a stylesheet of `updateCSS` back into the entries it renders. */
  function ParseStyleSheet(t: string): Option<Cache> {
    ParseText(RuleTemplate, t)
  }

  /** Entries whose rule the style engine reads back faithfully: the id
      holds no quote (see `Escape.IdentifierQuoteIsMisread`) and neither the
      id nor the image holds a newline or a NUL (see
      `Escape.NulIsReadAsReplacement`). */
  predicate Readable(e: Entry) {
    && (forall i :: 0 <= i < |e.id| ==> e.id[i] != '"')
    && HasNoNewline(e.id) && HasNoNul(e.id)
    && HasNoNewline(e.image) && HasNoNul(e.image)
  }

  lemma ParseFromUrlOfRule(tpl: Template, id: string, image: string, tail: string)
    requires HasNoNewline(image) && HasNoNul(image)
    ensures ParseFromUrl(tpl, id, EscapeUrl(image) + "\"" + (tpl.close + tail)) == Some((Entry(id, image), tail))
  {
    UrlEscapeReadsBack(image, tpl.close + tail);
    StartsWithAppend(tpl.close, tail);
  }

  lemma ParseFromIdOfRule(tpl: Template, e: Entry, tail: string)
    requires Readable(e)
    ensures ParseFromId(tpl, EscapeIdentifier(e.id) + "\"" + (tpl.middle + (EscapeUrl(e.image) + "\"" + (tpl.close + tail))))
         == Some((e, tail))
  {
    var u := EscapeUrl(e.image) + "\"" + (tpl.close + tail);
    IdentifierEscapeReadsBackWithoutQuotes(e.id, tpl.middle + u);
    StartsWithAppend(tpl.middle, u);
    ParseFromUrlOfRule(tpl, e.id, e.image, tail);
  }

  lemma RuleSplits(tpl: Template, e: Entry, tail: string)
    ensures Rule(tpl, e) + tail
         == tpl.open + (EscapeIdentifier(e.id) + "\"" + (tpl.middle + (EscapeUrl(e.image) + "\"" + (tpl.close + tail))))
  {
  }

  /** A rule parses back to its entry, whatever follows it. */
  lemma ParseRuleOfRule(tpl: Template, e: Entry, tail: string)
    requires Readable(e)
    ensures ParseRule(tpl, Rule(tpl, e) + tail) == Some((e, tail))
  {
    var x := EscapeIdentifier(e.id) + "\"" + (tpl.middle + (EscapeUrl(e.image) + "\"" + (tpl.close + tail)));
    RuleSplits(tpl, e, tail);
    StartsWithAppend(tpl.open, x);
    assert ParseRule(tpl, Rule(tpl, e) + tail) == ParseFromId(tpl, x);
    ParseFromIdOfRule(tpl, e, tail);
  }

  lemma JoinStep(rules: seq<string>, sep: string)
    requires |rules| > 1
    ensures Join(rules, sep) == rules[0] + (sep + Join(rules[1..], sep))
  {
  }

  /** One rule, then a newline and further text: the rule parses back and
      the rest starts right after the newline. */
  lemma ParseRulesStep(tpl: Template, e: Entry, rest: string, es: Cache)
    requires Readable(e)
    requires ParseRules(tpl, rest) == Some(es)
    ensures ParseRules(tpl, Rule(tpl, e) + ("\n" + rest)) == Some([e] + es)
  {
    ParseRuleOfRule(tpl, e, "\n" + rest);
    assert ("\n" + rest)[1..] == rest;
  }

  lemma {:induction false} ParseRulesOfJoin(tpl: Template, es: Cache, rules: seq<string>)
    requires |es| > 0 && |rules| == |es|
    requires forall i :: 0 <= i < |es| ==> Readable(es[i]) && rules[i] == Rule(tpl, es[i])
    ensures ParseRules(tpl, Join(rules, "\n")) == Some(es)
    decreases |es|
  {
    if |es| == 1 {
      ParseRuleOfRule(tpl, es[0], []);
      assert Join(rules, "\n") == Rule(tpl, es[0]) + [];
      assert es == [es[0]];
    } else {
      JoinStep(rules, "\n");
      ParseRulesOfJoin(tpl, es[1..], rules[1..]);
      ParseRulesStep(tpl, es[0], Join(rules[1..], "\n"), es[1..]);
      HeadAndTail(es);
    }
  }

  lemma TextReadsBack(tpl: Template, c: Cache)
    requires forall i :: 0 <= i < |c| ==> Readable(c[i])
    ensures ParseText(tpl, TextFrom(tpl, c)) == Some(Shown(c))
  {
    RulesFollowShown(tpl, c);
    var es := Shown(c);
    if |es| > 0 {
      forall i | 0 <= i < |es|
        ensures Readable(es[i])
      {
        assert es[i] in c;
      }
      ParseRulesOfJoin(tpl, es, Rules(tpl, c));
    }
  }

  /** The stylesheet encodes the cache's entries that have an image, in
      iteration order, and nothing else: parsing it back gives exactly
      those entries. */
  lemma StyleSheetReadsBack(c: Cache)
    requires forall i :: 0 <= i < |c| ==> Readable(c[i])
    ensures ParseStyleSheet(StyleText(c)) == Some(Shown(c))
  {
    TextReadsBack(RuleTemplate, c);
  }
}

=== FILE: workspace.dfy ===
/**
 The userscript's state and its handlers (workspace.uc.js:59-104,
 248-305, 352-378, 504-554): the image cache, the current workspace id,
 the text of the style element, the "Remove Background Image" menu item,
 and the persisted store. Each handler is a step function; what the host
 answers while it runs (the DOM queries behind `getCurrentWorkspaceId`, and
 which store calls throw) is a `Host`.

 The invariants kept by every step: the cache holds each id once and no
 empty image, the style text is the one derived from the cache, and every
 cached image is what the store reads for its workspace.
 */
module Workspace {

  import opened Common
  import opened ImageCache
  import opened StyleSheet
  import opened Storage
  import opened Resolver
  import opened DataUrl
  import Base64

  /** The "Remove Background Image" menu item: not created yet, or created
      and visible or hidden. */
  datatype RemoveItem = ItemAbsent | ItemVisible | ItemHidden

  /** `workspaceImages`, `currentWorkspaceId`, the style element's text, the
      Remove item, whether the workspace actions menu (and so the Set item)
      exists, and the persisted store. */
  datatype State = State(
    cache: Cache,
    current: Option<string>,
    style: string,
    remove: RemoveItem,
    menuPresent: bool,
    store: Store)

  /** The host's answers during one handler: the resolver probe (the same for
      every call within the handler) and the store faults. */
  datatype Host = Host(probe: Probe, faults: Faults)

  /** The cache holds no empty image. */
  ghost predicate NoEmptyImage(c: Cache) {
    forall k :: Get(c, k) != Some("")
  }

  /** The invariant of every reachable state. */
  ghost predicate Valid(s: State) {
    && UniqueIds(s.cache)
    && NoEmptyImage(s.cache)
    && s.style == StyleText(s.cache)
  }

  /** Every cached image is what a fault-free read of the store gives for
      its workspace. */
  ghost predicate BackedByStore(s: State) {
    forall k :: Get(s.cache, k).Some? ==> Get(s.cache, k) == Some(Stored(s.store, k))
  }

  /** `getStoredImage(id)` inside a handler. */
  function ReadStored(st: Store, h: Host, id: string): string {
    GetStoredImage(st, h.faults, Some(id), Resolve(h.probe))
  }

  /** `updateCSS`: the style element's text follows the cache. */
  function UpdateCss(s: State): (r: State)
    ensures r.style == StyleText(r.cache)
    ensures r == s.(style := r.style)
  {
    s.(style := StyleText(s.cache))
  }

  /** `showRemoveOption`: an existing item is shown; a missing one is
      created, visible, when the menu exists. */
  function ShowRemove(s: State): (r: State)
    ensures r == s.(remove := r.remove)
    ensures r.remove == ItemVisible <==> s.remove != ItemAbsent || s.menuPresent
  {
    if s.remove != ItemAbsent || s.menuPresent then s.(remove := ItemVisible) else s
  }

  /** `hideRemoveOption`: an existing item is hidden. */
  function HideRemove(s: State): (r: State)
    ensures r == s.(remove := r.remove)
    ensures r.remove != ItemVisible
    ensures r.remove == ItemAbsent <==> s.remove == ItemAbsent
  {
    if s.remove == ItemAbsent then s else s.(remove := ItemHidden)
  }

  /** `updateRemoveOption`: the item is shown exactly when an id resolves
      and the store reads a non-empty image for it; the cache is not
      consulted. */
  function UpdateRemoveOption(s: State, h: Host): (r: State)
    ensures r == s.(remove := r.remove)
    ensures s.menuPresent || s.remove != ItemAbsent ==>
      (r.remove == ItemVisible <==> Truthy(Resolve(h.probe)) && ReadStored(s.store, h, Resolve(h.probe).value) != "")
  {
    var id := Resolve(h.probe);
    if Truthy(id) && ReadStored(s.store, h, id.value) != "" then ShowRemove(s) else HideRemove(s)
  }

  // ---------------------------------------------------------------------
  // Loading from the store

  /** No id twice. */
  predicate Distinct(xs: seq<string>) {
    forall i, j :: 0 <= i < j < |xs| ==> xs[i] != xs[j]
  }

  /** Adds the truthy ids of `xs` to the insertion-ordered set `acc`. */
  function AddIds(acc: seq<string>, xs: seq<string>): (r: seq<string>)
    ensures forall x :: x in r <==> x in acc || (x in xs && x != "")
    ensures Distinct(acc) && "" !in acc ==> Distinct(r) && "" !in r
    decreases |xs|
  {
    if xs == [] then acc
    else
      assert forall x :: x in xs <==> x == xs[0] || x in xs[1..];
      var next := if xs[0] != "" && xs[0] !in acc then acc + [xs[0]] else acc;
      assert forall x :: x in next <==> x in acc || (x == xs[0] && x != "");
      AddIds(next, xs[1..])
  }

  /** The ids `loadAllWorkspaceImages` collects: the truthy ids of the
      workspace elements, then the truthy `zen-workspace-id` attributes of
      the indicators, each once, in first-seen order. */
  function DiscoverIds(elementIds: seq<string>, indicatorIds: seq<string>): (r: seq<string>)
    ensures Distinct(r) && "" !in r
    ensures forall x :: x in r <==> x != "" && (x in elementIds || x in indicatorIds)
  {
    AddIds([], elementIds + indicatorIds)
  }

  /** The cache entry a load leaves for `id`: the stored image if non-empty,
      nothing otherwise. */
  function Loaded(st: Store, h: Host, id: string): Option<string> {
    var v := ReadStored(st, h, id);
    if v != "" then Some(v) else None
  }

  /** One step of the loading loop: set the stored image, or delete. */
  function LoadOne(c: Cache, st: Store, h: Host, id: string): (r: Cache)
    ensures Get(r, id) == Loaded(st, h, id)
    ensures forall k :: k != id ==> Get(r, k) == Get(c, k)
  {
    var v := ReadStored(st, h, id);
    if v != "" then Set(c, id, v) else Delete(c, id)
  }

  /** The loading loop of `loadAllWorkspaceImages` over `ids`. */
  function LoadEach(c: Cache, st: Store, h: Host, ids: seq<string>): Cache
    decreases |ids|
  {
    if ids == [] then c else LoadEach(LoadOne(c, st, h, ids[0]), st, h, ids[1..])
  }

  /** After the loop each listed id holds its stored image, or is absent
      when that is empty, and every other id is untouched. */
  lemma {:induction false} LoadEachEffect(c: Cache, st: Store, h: Host, ids: seq<string>)
    requires Distinct(ids)
    ensures forall k :: k in ids ==> Get(LoadEach(c, st, h, ids), k) == Loaded(st, h, k)
    ensures forall k :: k !in ids ==> Get(LoadEach(c, st, h, ids), k) == Get(c, k)
    decreases |ids|
  {
    if ids != [] {
      var c1 := LoadOne(c, st, h, ids[0]);
      var rest := ids[1..];
      assert Distinct(rest) by {
        forall i, j | 0 <= i < j < |rest| ensures rest[i] != rest[j] {
          assert rest[i] == ids[i + 1] && rest[j] == ids[j + 1];
        }
      }
      assert ids[0] !in rest by {
        forall i | 0 <= i < |rest| ensures rest[i] != ids[0] {
          assert rest[i] == ids[i + 1];
        }
      }
      LoadEachEffect(c1, st, h, rest);
      assert forall k :: k in ids <==> k == ids[0] || k in rest;
    }
  }

  /** The loop keeps the cache's ids unique and free of empty images. */
  lemma {:induction false} LoadEachKeepsCache(c: Cache, st: Store, h: Host, ids: seq<string>)
    requires UniqueIds(c) && NoEmptyImage(c)
    ensures UniqueIds(LoadEach(c, st, h, ids)) && NoEmptyImage(LoadEach(c, st, h, ids))
    decreases |ids|
  {
    if ids != [] {
      var c1 := LoadOne(c, st, h, ids[0]);
      var v := ReadStored(st, h, ids[0]);
      if v != "" {
        SetKeepsIdsUnique(c, ids[0], v);
      } else {
        DeleteKeepsIdsUnique(c, ids[0]);
      }
      assert NoEmptyImage(c1) by {
        forall k ensures Get(c1, k) != Some("") {
          if k != ids[0] {
            assert Get(c1, k) == Get(c, k);
          }
        }
      }
      LoadEachKeepsCache(c1, st, h, ids[1..]);
    }
  }

  /** `loadAllWorkspaceImages`, given the ids of the workspace elements and
      the attributes of the indicators. */
  function LoadAllWorkspaceImages(s: State, h: Host, elementIds: seq<string>, indicatorIds: seq<string>): (r: State)
    ensures r.store == s.store && r.current == s.current && r.remove == s.remove
    ensures r.style == StyleText(r.cache)
  {
    UpdateCss(s.(cache := LoadEach(s.cache, s.store, h, DiscoverIds(elementIds, indicatorIds))))
  }

  /** `loadAndApplyImage`: with an id, make it current, and load it from the
      store only when the cache lacks it; then refresh the Remove item. */
  function LoadAndApplyImage(s: State, h: Host): (r: State)
    ensures r.store == s.store && r.menuPresent == s.menuPresent
    ensures !Truthy(Resolve(h.probe)) ==> r == s
    ensures Truthy(Resolve(h.probe)) ==>
      var id := Resolve(h.probe).value;
      && r.current == Some(id)
      && (Has(s.cache, id) ==> r.cache == s.cache)
      && (!Has(s.cache, id) ==> Get(r.cache, id) == Loaded(s.store, h, id))
      && (forall k :: k != id ==> Get(r.cache, k) == Get(s.cache, k))
  {
    var id := Resolve(h.probe);
    if !Truthy(id) then s
    else
      var s1 := s.(current := id);
      var s2 :=
        if Has(s1.cache, id.value) then s1
        else
          var v := ReadStored(s1.store, h, id.value);
          if v != "" then UpdateCss(s1.(cache := Set(s1.cache, id.value, v)))
          else s1.(cache := Delete(s1.cache, id.value));
      UpdateRemoveOption(s2, h)
  }

  /** The `MutationObserver` callback: a truthy id different from the
      current one becomes current and is loaded. */
  function OnMutation(s: State, h: Host): (r: State)
    ensures r.store == s.store
    ensures !Truthy(Resolve(h.probe)) || Resolve(h.probe) == s.current ==> r == s
  {
    var id := Resolve(h.probe);
    if Truthy(id) && id != s.current then UpdateRemoveOption(LoadAndApplyImage(s.(current := id), h), h)
    else s
  }

  /** `init` after its delay: the style element starts empty, the Remove
      item does not exist, then every discovered workspace and the current
      one are loaded. */
  function Init(h: Host, menuPresent: bool, st: Store, elementIds: seq<string>, indicatorIds: seq<string>): (r: State)
    ensures r.store == st && r.menuPresent == menuPresent
  {
    var s0 := State([], None, "", ItemAbsent, menuPresent, st);
    LoadAndApplyImage(LoadAllWorkspaceImages(s0, h, elementIds, indicatorIds), h)
  }

  // ---------------------------------------------------------------------
  // Setting and removing an image

  /** `applyImage`: set or delete the image of the given or resolved id and
      refresh the style text. */
  function ApplyImage(s: State, h: Host, dataUrl: string, given: Option<string>): (r: State)
    ensures r.store == s.store && r.current == s.current && r.remove == s.remove
    ensures EffectiveId(given, Resolve(h.probe)).None? ==> r == s
    ensures EffectiveId(given, Resolve(h.probe)).Some? ==>
      var id := EffectiveId(given, Resolve(h.probe)).value;
      && Get(r.cache, id) == (if dataUrl != "" then Some(dataUrl) else None)
      && (forall k :: k != id ==> Get(r.cache, k) == Get(s.cache, k))
      && r.style == StyleText(r.cache)
  {
    match EffectiveId(given, Resolve(h.probe))
    case None => s
    case Some(id) =>
      UpdateCss(s.(cache := if dataUrl != "" then Set(s.cache, id, dataUrl) else Delete(s.cache, id)))
  }

  /** `handleSetBackground` once the data URL is known (`None` when the
      handler stopped before having one): an acceptable URL for a resolved
      workspace is stored, then cached, the style refreshed and the Remove
      item shown; every other outcome changes nothing. */
  function ImportUrl(s: State, h: Host, url: Option<string>): (r: State)
    ensures r.current == s.current && r.menuPresent == s.menuPresent
    ensures url.None? || !Acceptable(url.value) || !Truthy(Resolve(h.probe)) ==> r == s
  {
    match url
    case None => s
    case Some(u) =>
      if !Acceptable(u) then s
      else
        var id := Resolve(h.probe);
        if !Truthy(id) then s
        else
          var st := StoreImage(s.store, h.faults, u, id, id);
          ShowRemove(UpdateCss(s.(store := st, cache := Set(s.cache, id.value, u))))
  }

  /** `handleSetBackground` after the picker, with the intended MIME lookup. */
  function SetBackground(s: State, h: Host, p: Pick): (r: State)
    ensures r.current == s.current && r.menuPresent == s.menuPresent
    ensures PickedDataUrl(p).None? || !Acceptable(PickedDataUrl(p).value) || !Truthy(Resolve(h.probe)) ==> r == s
  {
    ImportUrl(s, h, PickedDataUrl(p))
  }

  /** `handleSetBackground` after the picker, with the MIME lookup as
      written. */
  function SetBackgroundAsWritten(s: State, h: Host, p: Pick): (r: State)
    ensures r.current == s.current && r.menuPresent == s.menuPresent
    ensures PickedDataUrlAsWritten(p).None? || !Acceptable(PickedDataUrlAsWritten(p).value) || !Truthy(Resolve(h.probe)) ==> r == s
  {
    ImportUrl(s, h, PickedDataUrlAsWritten(p))
  }

  /** `handleRemoveBackground` with its delayed body run at once: for a
      resolved workspace, clear the store, drop the cache entry, refresh the
      style and hide the Remove item. */
  function RemoveBackground(s: State, h: Host): (r: State)
    ensures r.current == s.current && r.menuPresent == s.menuPresent
    ensures !Truthy(Resolve(h.probe)) ==> r == s
    ensures Truthy(Resolve(h.probe)) ==> r.remove != ItemVisible
  {
    var id := Resolve(h.probe);
    if !Truthy(id) then s
    else
      var st := RemoveStoredImage(s.store, h.faults, id, id);
      HideRemove(UpdateCss(s.(store := st, cache := Delete(s.cache, id.value))))
  }

  // ---------------------------------------------------------------------
  // Effects

  /** A workspace switch: the new id becomes current; its cache entry, if
      any, is kept as it is, otherwise it is loaded from the store; no other
      entry and nothing in the store changes. */
  lemma MutationSwitches(s: State, h: Host)
    requires Truthy(Resolve(h.probe)) && Resolve(h.probe) != s.current
    ensures var r := OnMutation(s, h); var id := Resolve(h.probe).value;
      && r.current == Some(id)
      && r.store == s.store
      && (Has(s.cache, id) ==> r.cache == s.cache)
      && (!Has(s.cache, id) ==> Get(r.cache, id) == Loaded(s.store, h, id))
      && (forall k :: k != id ==> Get(r.cache, k) == Get(s.cache, k))
  {
  }

  /** After a switch, or after `loadAndApplyImage`, the Remove item is
      visible exactly when the store reads an image for the current id
      (once the menu exists). */
  lemma SwitchShowsRemoveIffStored(s: State, h: Host)
    requires Truthy(Resolve(h.probe)) && s.menuPresent
    ensures var id := Resolve(h.probe).value;
      && (Resolve(h.probe) != s.current ==> (OnMutation(s, h).remove == ItemVisible <==> ReadStored(s.store, h, id) != ""))
      && (LoadAndApplyImage(s, h).remove == ItemVisible <==> ReadStored(s.store, h, id) != "")
  {
  }

  /** The Remove item's visibility does not depend on the cache at all. */
  lemma RemoveIgnoresCache(s: State, h: Host, c: Cache)
    ensures UpdateRemoveOption(s.(cache := c), h).remove == UpdateRemoveOption(s, h).remove
  {
  }

  /** A read inside a handler that does not throw is the fault-free read. */
  lemma ReadStoredWithoutFaults(st: Store, h: Host, id: string)
    requires id != "" && h.faults == NoFaults
    ensures ReadStored(st, h, id) == Stored(st, id)
  {
    assert EffectiveId(Some(id), Resolve(h.probe)) == EffectiveId(Some(id), None);
  }

  /** On a valid state whose cache follows the store, and with a store that
      does not throw, `loadAndApplyImage` leaves the Remove item visible
      exactly when the current workspace is cached. */
  lemma LoadAndApplyRemoveIffCached(s: State, h: Host)
    requires Valid(s) && BackedByStore(s) && h.faults == NoFaults
    requires s.menuPresent && Truthy(Resolve(h.probe))
    ensures var r := LoadAndApplyImage(s, h);
      r.remove == ItemVisible <==> Has(r.cache, Resolve(h.probe).value)
  {
    var id := Resolve(h.probe).value;
    var r := LoadAndApplyImage(s, h);
    ReadStoredWithoutFaults(s.store, h, id);
    if Has(s.cache, id) {
      assert r.cache == s.cache;
      assert Get(s.cache, id) == Some(Stored(s.store, id));
      assert Get(s.cache, id) != Some("");
    }
  }

  /** `loadAllWorkspaceImages` leaves each discovered id in the cache
      exactly when the store reads a non-empty image for it, with that
      image; undiscovered ids keep their entries. */
  lemma LoadAllEffect(s: State, h: Host, elementIds: seq<string>, indicatorIds: seq<string>)
    ensures var r := LoadAllWorkspaceImages(s, h, elementIds, indicatorIds);
      && (forall k :: k != "" && (k in elementIds || k in indicatorIds) ==>
            (Has(r.cache, k) <==> ReadStored(s.store, h, k) != "")
            && Get(r.cache, k) == Loaded(s.store, h, k))
      && (forall k :: !(k != "" && (k in elementIds || k in indicatorIds)) ==> Get(r.cache, k) == Get(s.cache, k))
  {
    LoadEachEffect(s.cache, s.store, h, DiscoverIds(elementIds, indicatorIds));
  }

  /** Importing an acceptable URL for a resolved workspace: the id maps to
      the URL, the other ids keep their entries and their stored images, the
      store holds the URL unless the write throws, a write that throws
      changes no store, and the Remove item is visible once the menu
      exists. */
  lemma ImportUrlEffect(s: State, h: Host, url: string)
    requires Acceptable(url) && Truthy(Resolve(h.probe))
    ensures var r := ImportUrl(s, h, Some(url)); var id := Resolve(h.probe).value;
      && Get(r.cache, id) == Some(url)
      && (forall k :: k != id ==> Get(r.cache, k) == Get(s.cache, k))
      && (forall k :: k != id ==> Stored(r.store, k) == Stored(s.store, k))
      && (!WriteThrows(s.store, h.faults) ==> Stored(r.store, id) == url)
      && (WriteThrows(s.store, h.faults) ==> r.store == s.store)
      && (s.menuPresent ==> r.remove == ItemVisible)
  {
    var id := Resolve(h.probe).value;
    var r := ImportUrl(s, h, Some(url));
    var st := StoreImage(s.store, h.faults, url, Some(id), Some(id));
    assert r.cache == Set(s.cache, id, url) && r.store == st;
    assert url != "" by { assert url[..|ImagePrefix|] == ImagePrefix; }
    assert st == StoreImage(s.store, h.faults, url, Some(id), None);
    forall k | k != id
      ensures Stored(st, k) == Stored(s.store, k)
    {
      StoreKeepsOthers(s.store, h.faults, url, id, k);
    }
    if !WriteThrows(s.store, h.faults) {
      assert st == StoreImage(s.store, NoFaults, url, Some(id), None);
      StoreThenGet(s.store, url, id, None);
    }
  }

  /** A successful Set with the intended lookup: the id maps to the URL, the
      other ids keep their entries and their stored images, the store holds
      the URL unless the write throws, and the Remove item is visible once
      the menu exists. */
  lemma SetBackgroundEffect(s: State, h: Host, p: Pick)
    requires PickedDataUrl(p).Some? && Acceptable(PickedDataUrl(p).value) && Truthy(Resolve(h.probe))
    ensures var r := SetBackground(s, h, p); var id := Resolve(h.probe).value; var url := PickedDataUrl(p).value;
      && Get(r.cache, id) == Some(url)
      && (forall k :: k != id ==> Get(r.cache, k) == Get(s.cache, k))
      && (forall k :: k != id ==> Stored(r.store, k) == Stored(s.store, k))
      && (!WriteThrows(s.store, h.faults) ==> Stored(r.store, id) == url)
      && (s.menuPresent ==> r.remove == ItemVisible)
  {
    ImportUrlEffect(s, h, PickedDataUrl(p).value);
  }

  /** The same for the script's own Set handler. */
  lemma SetBackgroundAsWrittenEffect(s: State, h: Host, p: Pick)
    requires PickedDataUrlAsWritten(p).Some? && Acceptable(PickedDataUrlAsWritten(p).value) && Truthy(Resolve(h.probe))
    ensures var r := SetBackgroundAsWritten(s, h, p); var id := Resolve(h.probe).value; var url := PickedDataUrlAsWritten(p).value;
      && Get(r.cache, id) == Some(url)
      && (forall k :: k != id ==> Get(r.cache, k) == Get(s.cache, k))
      && (forall k :: k != id ==> Stored(r.store, k) == Stored(s.store, k))
      && (!WriteThrows(s.store, h.faults) ==> Stored(r.store, id) == url)
      && (s.menuPresent ==> r.remove == ItemVisible)
  {
    ImportUrlEffect(s, h, PickedDataUrlAsWritten(p).value);
  }

  /** As written, a readable `wallpaper.constructor` whose type is not
      detected is refused and nothing changes; with the intended lookup the
      same pick is cached for the resolved workspace. */
  lemma ConstructorPickIgnored(s: State, h: Host, bytes: seq<Base64.Byte>)
    requires Truthy(Resolve(h.probe))
    ensures SetBackgroundAsWritten(s, h, Picked("wallpaper.constructor", None, IoRead(bytes))) == s
    ensures Get(SetBackground(s, h, Picked("wallpaper.constructor", None, IoRead(bytes))).cache, Resolve(h.probe).value)
         == PickedDataUrl(Picked("wallpaper.constructor", None, IoRead(bytes)))
  {
    var p := Picked("wallpaper.constructor", None, IoRead(bytes));
    ConstructorFileRefused(bytes);
    SetBackgroundEffect(s, h, p);
  }

  /** A Remove: the id leaves the cache and (without faults) the store, the
      other ids keep their entries and their stored images, and the Remove
      item is not visible. */
  lemma RemoveBackgroundEffect(s: State, h: Host)
    requires Truthy(Resolve(h.probe))
    ensures var r := RemoveBackground(s, h); var id := Resolve(h.probe).value;
      && Get(r.cache, id) == None
      && (forall k :: k != id ==> Get(r.cache, k) == Get(s.cache, k))
      && (forall k :: k != id ==> Stored(r.store, k) == Stored(s.store, k))
      && (h.faults == NoFaults ==> Stored(r.store, id) == "")
      && r.remove != ItemVisible
  {
    var id := Resolve(h.probe).value;
    var r := RemoveBackground(s, h);
    var st := RemoveStoredImage(s.store, h.faults, Some(id), Some(id));
    assert r.cache == Delete(s.cache, id) && r.store == st;
    assert st == RemoveStoredImage(s.store, h.faults, Some(id), None);
    forall k | k != id
      ensures Stored(st, k) == Stored(s.store, k)
    {
      RemoveKeepsOthers(s.store, h.faults, id, k);
    }
    if h.faults == NoFaults {
      RemoveThenGet(s.store, id, None);
    }
  }

  // ---------------------------------------------------------------------
  // Invariants

  lemma InitValid(h: Host, menuPresent: bool, st: Store, elementIds: seq<string>, indicatorIds: seq<string>)
    ensures Valid(Init(h, menuPresent, st, elementIds, indicatorIds))
  {
    var s0 := State([], None, "", ItemAbsent, menuPresent, st);
    LoadAllKeepsValid(s0, h, elementIds, indicatorIds);
    LoadAndApplyKeepsValid(LoadAllWorkspaceImages(s0, h, elementIds, indicatorIds), h);
  }

  lemma LoadAllKeepsValid(s: State, h: Host, elementIds: seq<string>, indicatorIds: seq<string>)
    requires UniqueIds(s.cache) && NoEmptyImage(s.cache)
    ensures Valid(LoadAllWorkspaceImages(s, h, elementIds, indicatorIds))
  {
    LoadEachKeepsCache(s.cache, s.store, h, DiscoverIds(elementIds, indicatorIds));
  }

  /** Setting a non-empty image keeps the cache well formed. */
  lemma SetKeepsCache(c: Cache, id: string, v: string)
    requires UniqueIds(c) && NoEmptyImage(c) && v != ""
    ensures UniqueIds(Set(c, id, v)) && NoEmptyImage(Set(c, id, v))
  {
    SetKeepsIdsUnique(c, id, v);
    forall k ensures Get(Set(c, id, v), k) != Some("") {
      if k != id {
        assert Get(Set(c, id, v), k) == Get(c, k);
      }
    }
  }

  /** Deleting keeps the cache well formed. */
  lemma DeleteKeepsCache(c: Cache, id: string)
    requires UniqueIds(c) && NoEmptyImage(c)
    ensures UniqueIds(Delete(c, id)) && NoEmptyImage(Delete(c, id))
  {
    DeleteKeepsIdsUnique(c, id);
    forall k ensures Get(Delete(c, id), k) != Some("") {
      if k != id {
        assert Get(Delete(c, id), k) == Get(c, k);
      }
    }
  }

  lemma LoadAndApplyKeepsValid(s: State, h: Host)
    requires Valid(s)
    ensures Valid(LoadAndApplyImage(s, h))
  {
    var id := Resolve(h.probe);
    if Truthy(id) && !Has(s.cache, id.value) {
      var v := ReadStored(s.store, h, id.value);
      if v != "" {
        SetKeepsCache(s.cache, id.value, v);
      } else {
        assert Delete(s.cache, id.value) == s.cache;
      }
    }
  }

  lemma OnMutationKeepsValid(s: State, h: Host)
    requires Valid(s)
    ensures Valid(OnMutation(s, h))
  {
    var id := Resolve(h.probe);
    if Truthy(id) && id != s.current {
      LoadAndApplyKeepsValid(s.(current := id), h);
    }
  }

  lemma ApplyImageKeepsValid(s: State, h: Host, dataUrl: string, given: Option<string>)
    requires Valid(s)
    ensures Valid(ApplyImage(s, h, dataUrl, given))
  {
    match EffectiveId(given, Resolve(h.probe))
    case None =>
    case Some(id) =>
      if dataUrl != "" {
        SetKeepsCache(s.cache, id, dataUrl);
      } else {
        DeleteKeepsCache(s.cache, id);
      }
  }

  lemma ImportUrlKeepsValid(s: State, h: Host, url: Option<string>)
    requires Valid(s)
    ensures Valid(ImportUrl(s, h, url))
  {
    var id := Resolve(h.probe);
    if url.Some? && Acceptable(url.value) && Truthy(id) {
      assert url.value != "" by { assert url.value[..|ImagePrefix|] == ImagePrefix; }
      SetKeepsCache(s.cache, id.value, url.value);
    }
  }

  lemma SetBackgroundKeepsValid(s: State, h: Host, p: Pick)
    requires Valid(s)
    ensures Valid(SetBackground(s, h, p))
  {
    ImportUrlKeepsValid(s, h, PickedDataUrl(p));
  }

  lemma SetBackgroundAsWrittenKeepsValid(s: State, h: Host, p: Pick)
    requires Valid(s)
    ensures Valid(SetBackgroundAsWritten(s, h, p))
  {
    ImportUrlKeepsValid(s, h, PickedDataUrlAsWritten(p));
  }

  lemma RemoveBackgroundKeepsValid(s: State, h: Host)
    requires Valid(s)
    ensures Valid(RemoveBackground(s, h))
  {
    var id := Resolve(h.probe);
    if Truthy(id) {
      DeleteKeepsCache(s.cache, id.value);
    }
  }

  // ---------------------------------------------------------------------
  // The cache follows the store

  lemma InitBackedByStore(h: Host, menuPresent: bool, st: Store, elementIds: seq<string>, indicatorIds: seq<string>)
    ensures BackedByStore(Init(h, menuPresent, st, elementIds, indicatorIds))
  {
    var s0 := State([], None, "", ItemAbsent, menuPresent, st);
    LoadAllKeepsBacked(s0, h, elementIds, indicatorIds);
    LoadAndApplyKeepsBacked(LoadAllWorkspaceImages(s0, h, elementIds, indicatorIds), h);
  }

  /** What a load puts in the cache is what a fault-free read gives: a read
      that throws yields the empty string, which loads nothing. */
  lemma LoadedIsStored(st: Store, h: Host, id: string)
    requires id != ""
    ensures Loaded(st, h, id).Some? ==> Loaded(st, h, id) == Some(Stored(st, id))
  {
    FaultyReadIsEmptyOrExact(st, h.faults, id);
  }

  lemma LoadAllKeepsBacked(s: State, h: Host, elementIds: seq<string>, indicatorIds: seq<string>)
    requires BackedByStore(s)
    ensures BackedByStore(LoadAllWorkspaceImages(s, h, elementIds, indicatorIds))
  {
    var ids := DiscoverIds(elementIds, indicatorIds);
    LoadEachEffect(s.cache, s.store, h, ids);
    var r := LoadAllWorkspaceImages(s, h, elementIds, indicatorIds);
    forall k | Get(r.cache, k).Some?
      ensures Get(r.cache, k) == Some(Stored(r.store, k))
    {
      if k in ids {
        LoadedIsStored(s.store, h, k);
      }
    }
  }

  lemma LoadAndApplyKeepsBacked(s: State, h: Host)
    requires BackedByStore(s)
    ensures BackedByStore(LoadAndApplyImage(s, h))
  {
    var id := Resolve(h.probe);
    if Truthy(id) && !Has(s.cache, id.value) {
      LoadedIsStored(s.store, h, id.value);
    }
  }

  lemma OnMutationKeepsBacked(s: State, h: Host)
    requires BackedByStore(s)
    ensures BackedByStore(OnMutation(s, h))
  {
    var id := Resolve(h.probe);
    if Truthy(id) && id != s.current {
      LoadAndApplyKeepsBacked(s.(current := id), h);
    }
  }

  /** When the image write does not throw, importing a URL keeps the cache
      backed by the store: the cached URL is the stored one. */
  lemma ImportUrlKeepsBacked(s: State, h: Host, url: Option<string>)
    requires BackedByStore(s) && !WriteThrows(s.store, h.faults)
    ensures BackedByStore(ImportUrl(s, h, url))
  {
    if url.Some? && Acceptable(url.value) && Truthy(Resolve(h.probe)) {
      ImportUrlEffect(s, h, url.value);
    }
  }

  lemma SetBackgroundKeepsBacked(s: State, h: Host, p: Pick)
    requires BackedByStore(s) && !WriteThrows(s.store, h.faults)
    ensures BackedByStore(SetBackground(s, h, p))
  {
    ImportUrlKeepsBacked(s, h, PickedDataUrl(p));
  }

  lemma SetBackgroundAsWrittenKeepsBacked(s: State, h: Host, p: Pick)
    requires BackedByStore(s) && !WriteThrows(s.store, h.faults)
    ensures BackedByStore(SetBackgroundAsWritten(s, h, p))
  {
    ImportUrlKeepsBacked(s, h, PickedDataUrlAsWritten(p));
  }

  /** A Remove keeps the cache backed by the store whatever throws. */
  lemma RemoveBackgroundKeepsBacked(s: State, h: Host)
    requires BackedByStore(s)
    ensures BackedByStore(RemoveBackground(s, h))
  {
    if Truthy(Resolve(h.probe)) {
      RemoveBackgroundEffect(s, h);
    }
  }

  /** When the store the image goes to throws, the new image is cached but
      not stored. */
  lemma FailedStoreLeavesCacheAhead(s: State, h: Host, p: Pick)
    requires PickedDataUrl(p).Some? && Acceptable(PickedDataUrl(p).value) && Truthy(Resolve(h.probe))
    requires WriteThrows(s.store, h.faults)
    ensures SetBackground(s, h, p).store == s.store
    ensures Get(SetBackground(s, h, p).cache, Resolve(h.probe).value) == PickedDataUrl(p)
  {
    ImportUrlEffect(s, h, PickedDataUrl(p).value);
  }

  /** The same for the script's own Set handler. */
  lemma FailedStoreLeavesCacheAheadAsWritten(s: State, h: Host, p: Pick)
    requires PickedDataUrlAsWritten(p).Some? && Acceptable(PickedDataUrlAsWritten(p).value) && Truthy(Resolve(h.probe))
    requires WriteThrows(s.store, h.faults)
    ensures SetBackgroundAsWritten(s, h, p).store == s.store
    ensures Get(SetBackgroundAsWritten(s, h, p).cache, Resolve(h.probe).value) == PickedDataUrlAsWritten(p)
  {
    ImportUrlEffect(s, h, PickedDataUrlAsWritten(p).value);
  }
}
